=== FILE: README.md ===
# Station selection and observation fusion for air-quality bias correction

This Dafny project models the data-preparation core of `aq-biascorrection`. That
package corrects the bias of CAMS air-quality forecasts against OpenAQ ground
observations. The model covers three parts.

- **Extraction downloader** (`src/data/extraction/openaq_obs.py`). It validates
  the variable and narrows the station directory's answer to reference-grade
  sensors when there are any. It scores each station's temporal coverage of the
  requested window as 1, the sentinel −1, or the fraction of hourly stamps on
  the station's day-truncated hourly grid. It drops the −1 stations, sorts the
  rest by distance over score, and fetches in that order. A failing station is
  skipped, fetching stops after five successes, and it fails when nothing
  arrives. Building a fetched dataset looks the variable up in a table of
  long names that has no entry for so2 or pm10. The model takes that table as
  a parameter, both as written and as evidently intended.
- **Data loader** (`src/models/load_data.py`). It converts ozone from ppm, then
  resamples every station to 3-hour buckets with a missing-skipping mean. Next
  it fuses the stations by inverse-distance weighting: the weight is
  `round(1/d, 2)`, and values are collected in a dictionary keyed by that
  weight. As written, this fusion raises for every dataset with more than one
  station; the model holds both that and the evidently intended fusion. The result is merged with the forecast on time. Rows with any missing
  field are dropped, and `bias = forecast − observed` is added. The air-density
  division is modelled too.
- **Legacy downloader** (`src/data/download/downloader.py`). This covers the
  variable check, the exact-location test (numpy `allclose` with `atol = 1e-3`
  and the default `rtol = 1e-5`), and the station choice. It also covers the
  output paths, the time-window and non-negative filter of measurements, and the
  station's variable check.

Timestamps are whole hours since 1970-01-01 UTC. For example, 2019-06-01 is
hour 433152 and 2021-03-31 is hour 449208. Great-circle distances are inputs.
NaN is `None`. Exceptions are `Err` values of a `Result`, with one `Error`
constructor per cause. The station directory and the measurement service are
parameters:

- a sequence of stations;
- a function from a station to `Some(measurements)`, or to `None` when the
  request raises.

Modules:

- `Common`: `Option`, `Result`, `Error`, `Filter`, `Take` and the five known
  variables.
- `Numeric`: sums, means, weighted means, and numpy's round-half-to-even at two
  decimals.
- `Text`: lower-casing, joining, character removal and path joining.
- `Coverage`: the coverage score.
- `Ranking`: candidate selection, scoring of all stations, ranking key, sort.
- `Locations`: the location of interest.
- `Extraction`: the extraction downloader's constructor, variable check and
  fetch loop.
- `Observations`: unit conversion and resampling.
- `Fusion`: the inverse-distance fusion, both as intended and as written.
- `Merging`: `DataLoader.run` and the air density.
- `LegacyDownloader`: the legacy downloader.

Three behaviours of the code worth knowing, each modelled as the code has it:

- Two stations whose weights round alike do not average. The later one's value
  replaces the earlier one's, because the dictionary is keyed by the rounded
  weight (`src/models/load_data.py:144-147`).
- The docstring at `src/data/extraction/openaq_obs.py:84-88` describes
  `is_in_temporal_range` as telling whether a station's measurements are
  entirely in the requested window. The code gives the −1 sentinel only when
  the window ends before the station's first update (lines 110-113). A station
  whose data ends before the window starts is not given −1; it scores 0.
- A coverage score of exactly 0 is therefore possible, and the ranking key
  treats it as an infinite distance over score.

## Model

| member | source | states |
|---|---|---|
| `Extraction.NewExtractor` | src/data/extraction/openaq_obs.py:47-56 | construction succeeds exactly for o3, no2, so2, pm10 and pm25 and otherwise raises for that variable; it keeps the location, variable and output directory; the window defaults to 2019-06-01 .. 2021-03-31 |
| `Ranking.SelectCandidates` | src/data/extraction/openaq_obs.py:164-172 | an empty answer raises; if any station is reference grade the result is exactly the reference-grade stations in their order, otherwise the answer unchanged |
| `Ranking.ReferenceGradeOverridesDistance` | src/data/extraction/openaq_obs.py:169-172 | a reference-grade station 50 km away is kept and a low-cost sensor 5 km away is dropped |
| `Coverage.DayFloor` | src/data/extraction/openaq_obs.py:116-121 | the `%Y-%m-%d` truncation gives the midnight at or before the instant, less than a day before it |
| `Coverage.CountOnGrid` | src/data/extraction/openaq_obs.py:129-132 | the loop counting requested stamps that lie on the station grid counts exactly the overlap of the two hour intervals |
| `Coverage.Score` | src/data/extraction/openaq_obs.py:103-135 | 1 when the window lies in the station's interval; −1 exactly when it does not and ends before the station's first update; otherwise covered stamps over requested stamps, in [0, 1]; the only failure is the division by zero when no stamp is requested |
| `Coverage.StationEndingEarlyScoresZero` | src/data/extraction/openaq_obs.py:110-135 | a station whose last update precedes the window scores 0, not the sentinel |
| `Coverage.GridTruncationCanGiveFullScore` | src/data/extraction/openaq_obs.py:115-123 | a station starting inside the window's first day still scores 1, because its grid starts at midnight |
| `Ranking.ScoreAll` | src/data/extraction/openaq_obs.py:94-137 | every station is scored in order, and the scoring raises, with the division-by-zero error, exactly when some station's score divides by zero |
| `Ranking.SortByKey` | src/data/extraction/openaq_obs.py:142-145 | the result is sorted ascending by distance over score (NaN last, score 0 an infinity) and is a permutation of its input |
| `Ranking.Rank` | src/data/extraction/openaq_obs.py:136-146 | the ranked list is sorted by the key and is a permutation of the scored stations whose score is not −1; its only failure is the scoring's division by zero |
| `Ranking.RankKeepsExactlyInRange` | src/data/extraction/openaq_obs.py:138 | no −1 station remains, every remaining station is a candidate carrying its own score, and every candidate scored otherwise is kept |
| `Ranking.FullyCoveringPairRanks` | src/data/extraction/openaq_obs.py:103-145 | two stations covering the window are both kept with score 1 and sorted by the key |
| `Ranking.SortPair` | src/data/extraction/openaq_obs.py:142-145 | two elements whose keys are strictly ordered come out in key order from either input order |
| `Ranking.CloserFullyCoveringStationRanksFirst` | src/data/extraction/openaq_obs.py:103-145 | of two stations covering the window, the closer ranks first, both with score 1, for both input orders |
| `Extraction.CheckVariableInStation` | src/data/extraction/openaq_obs.py:219-226 | passes exactly when the variable is the `parameter` of one of the station's parameters, raises otherwise |
| `Extraction.FetchOne` | src/data/extraction/openaq_obs.py:192-217 | a station yields data exactly when it lists the variable, its request succeeds and the long-name table has the variable; then it carries its identity, distance and measurements |
| `Extraction.UnnamedVariableIsNeverFetched` | src/data/extraction/openaq_obs.py:174-188 | a variable missing from the long-name table is fetched from no station at all |
| `Extraction.So2StationSkippedAsWritten` | src/data/extraction/openaq_obs.py:287-294 | a station listing so2 whose request succeeds is skipped with the table as written and fetched with the intended table |
| `Extraction.FetchData` | src/data/extraction/openaq_obs.py:174-190 | the result is the first up to five successful stations in ranked order, never more series than ranked stations; it raises exactly when no station succeeds |
| `Extraction.SuccessesPrefix` | src/data/extraction/openaq_obs.py:177-183 | the successes among a prefix of the ranked stations are a prefix of all successes, so stopping early keeps ranked order |
| `Extraction.Extract` | src/data/extraction/openaq_obs.py:69-71 | an empty directory answer raises "no stations"; a scoring division by zero raises that error; otherwise it raises "no data" exactly when no ranked station is fetched, and else returns the first up to five fetched stations in ranked order; a variable without a long name always raises; each series is from a directory station that passed the reference-grade filter and is not scored −1 |
| `Extraction.RankedIsEligible` | src/data/extraction/openaq_obs.py:136-172 | every ranked station is one of the directory's, reference grade whenever any was, and not scored −1 |
| `Locations.NewLocation` | src/data/utils.py:4-15 | a location built without a distance has distance 0 and the given fields |
| `Common.Filter` | src/data/extraction/openaq_obs.py:170-171 | boolean selection keeps exactly the rows satisfying the mask, each as often as before |
| `Common.FilterConcat` | src/data/extraction/openaq_obs.py:171 | selection distributes over concatenation, that is, it keeps the original order |
| `Common.Take` | src/data/extraction/openaq_obs.py:182-183 | stopping after five keeps a prefix of at most five elements |
| `Observations.ConvertColumn` | src/models/load_data.py:104-110 | ozone values become v·1000/0.816 and other variables are unchanged; missing stays missing |
| `Observations.ConvertUnits` | src/models/load_data.py:104-110 | every station column is converted and the time axis is kept |
| `Observations.ConvertOzoneRoundTrip` | src/models/load_data.py:104-110 | dividing a converted ozone value by 1000 and multiplying by 0.816 recovers the observation |
| `Observations.Bucket` | src/models/load_data.py:113-115 | each instant falls in the 3-hour bucket starting at or before it, aligned to midnight |
| `Observations.BucketStarts` | src/models/load_data.py:113-115 | the resampled axis runs in 3-hour steps from the earliest observation's bucket to the latest's |
| `Observations.EveryTimeHasItsBucket` | src/models/load_data.py:113-115 | every observation's bucket is on the resampled axis |
| `Observations.InBucket` | src/models/load_data.py:113-115 | the values averaged for a bucket are present values observed in it, and every present value observed in it is among them |
| `Observations.InBucketCounts` | src/models/load_data.py:113-115 | each value is averaged as many times as the bucket holds an observation of it |
| `Observations.ResampleIsBucketMean` | src/models/load_data.py:113-115 | a resampled entry is the mean of the bucket's present values, or missing when there are none |
| `Observations.Resample` | src/models/load_data.py:113-115 | the resampled dataset has the bucket axis and the same stations with their distances |
| `Observations.ResampleMissingIff` | src/models/load_data.py:113-115 | a bucket is missing exactly when every observation of that station in it is missing |
| `Observations.ResampleMeanWithin` | src/models/load_data.py:113-115 | a bucket value lies between two of the bucket's observed values |
| `Numeric.MeanBetweenMinAndMax` | src/models/load_data.py:113-115 | a mean lies between the smallest and the largest value averaged |
| `Numeric.Round2` | src/models/load_data.py:144 | `round(x, 2)` is a whole number of hundredths within 0.005 of x, non-negative for non-negative x, and an even number of hundredths on a tie |
| `Numeric.RoundHalfEven` | src/models/load_data.py:144 | rounding to a whole number moves at most 0.5 and sends halves to the even neighbour |
| `Numeric.Round2Idempotent` | src/models/load_data.py:144 | rounding an already rounded weight changes nothing |
| `Fusion.Weight` | src/models/load_data.py:144 | the weight is a non-negative whole number of hundredths within 0.005 of 1/d, an even number of hundredths when 100/d lies exactly halfway |
| `Fusion.NearbyStationsShareWeight` | src/models/load_data.py:144-147 | stations at 45 km and 46 km both get weight 0.02, so with values 1 and 4 the fused value is 4, the later station's |
| `Fusion.Put` | src/models/load_data.py:147 | dictionary assignment keeps keys unique, stores the new pair, and keeps every other key's pair |
| `Fusion.Contributions` | src/models/load_data.py:141-147 | the dictionary built at one instant has unique weights |
| `Fusion.ContributionsSound` | src/models/load_data.py:141-147 | every dictionary entry is the weight and value of a station present at that instant that no later station with the same weight overrides |
| `Fusion.ContributionsComplete` | src/models/load_data.py:141-147 | every station present at the instant has an entry under its weight |
| `Fusion.SameWeightLaterWins` | src/models/load_data.py:144-147 | of two present stations with the same rounded weight, the entry holds the later one's value |
| `Fusion.ContributionsBounded` | src/models/load_data.py:141-147 | the dictionary's values lie between the values of two present stations |
| `Fusion.Fuse` | src/models/load_data.py:134-160 | the fused series has exactly one value per time step |
| `Fusion.SingleStationPassesThrough` | src/models/load_data.py:134-136 | a single station's series is kept value for value, whatever its distance, including 0, both as intended and as written |
| `Fusion.StationAtLocationPassesThrough` | src/models/load_data.py:134-136 | a single station at distance 0, exactly at the location, passes through both versions unchanged |
| `Fusion.SingleStationAgreesWithWeighting` | src/models/load_data.py:134-157 | weighting a single station at a positive distance whose weight does not round to zero would give its pass-through value |
| `Fusion.FuseNeverFabricates` | src/models/load_data.py:148-149 | an instant where every station is missing stays missing |
| `Fusion.FusePresentWhenWeighted` | src/models/load_data.py:148-157 | with several stations, an instant where a station with positive weight has a value gets a fused value |
| `Fusion.FuseWithin` | src/models/load_data.py:150-157 | a fused value lies between the smallest and the largest value present at that instant |
| `Fusion.DistinctWeightsAverage` | src/models/load_data.py:150-157 | two stations with different rounded weights fuse to w₀v₀+w₁v₁ over w₀+w₁ |
| `Fusion.EqualWeightsKeepLaterStation` | src/models/load_data.py:144-147 | two stations whose weights round alike fuse to the later station's value, not their average |
| `Fusion.FuseAsWritten` | src/models/load_data.py:134-159 | as written, the fusion succeeds exactly when there is one station, and then passes it through; several stations raise, with the weight-array error or the coordinate-drop error |
| `Fusion.AsWrittenAllMissingFailsOnDrop` | src/models/load_data.py:158-159 | as written, several stations with no value at all raise when the per-station coordinates are dropped |
| `Fusion.AsWrittenNeverFusesSeveralStations` | src/models/load_data.py:150-153 | as written, any present value among several stations makes the fusion raise |
| `Fusion.WeightArrayWitness` | src/models/load_data.py:150-157 | stations at 10 km and 20 km with values 1 and 4: as written it raises, as intended it fuses to 2 |
| `Merging.GroundTruth` | src/models/load_data.py:104-119 | converted, resampled, then fused: one value per 3-hour bucket of the observation axis |
| `Merging.Lookup` | src/models/load_data.py:48 | the merge takes the observation at the first step with the row's time, and missing when there is none |
| `Merging.Join` | src/models/load_data.py:48-49 | each forecast row is paired with the observation of its time |
| `Merging.WithBias` | src/models/load_data.py:55-61 | a complete row carries its fields and observed + bias = forecast |
| `Merging.DropAndBias` | src/models/load_data.py:53-61 | exactly the complete merged rows survive, in order, each with its bias |
| `Merging.Run` | src/models/load_data.py:39-62 | fails exactly when the observations cannot be opened, with the no-data error; otherwise every row has observed + bias = forecast |
| `Merging.RunSound` | src/models/load_data.py:48-61 | every row comes from a forecast step with its time, forecast and fields, holds the observation of its time, and has bias = forecast − observed |
| `Merging.RunComplete` | src/models/load_data.py:48-53 | every complete forecast step whose time has an observation appears in the result |
| `Merging.RunKeepsTimeOrder` | src/models/load_data.py:48-53 | rows keep the increasing time order of the forecast |
| `Merging.RunAsWritten` | src/models/load_data.py:42-46 | as written, a fusion error is reported as missing ground truth: one station behaves as intended and any other number of stations raises |
| `Merging.RunAsWrittenFailsForSeveralStations` | src/models/load_data.py:42-46 | as written, two or more stations make `run` raise whatever their data, where the intended fusion succeeds |
| `Merging.AirDensity` | src/models/load_data.py:192-195 | the density times t·287.058 is the surface pressure; positive pressure gives positive density |
| `Merging.AirDensityLinearInPressure` | src/models/load_data.py:195 | doubling the pressure doubles the density |
| `LegacyDownloader.NewDownloader` | src/data/download/downloader.py:41-58 | construction succeeds exactly for the five known variables, raising otherwise; the window defaults to 2019-01-01 .. 2021-03-31 |
| `LegacyDownloader.CloseBounds` | src/data/download/downloader.py:109-116 | for real coordinates a match means both differences are at most 0.0028°, and differences up to 0.001° always match |
| `LegacyDownloader.CloseIsNotSymmetric` | src/data/download/downloader.py:111 | the tolerance scales with the location's coordinate, so swapping the arguments can change the answer |
| `LegacyDownloader.StationsInLocation` | src/data/download/downloader.py:105-118 | a station is flagged exactly when both of its coordinates are within tolerance of the location's |
| `LegacyDownloader.FirstMatch` | src/data/download/downloader.py:80-81 | the first flagged station is chosen, and there is none exactly when no station is flagged |
| `LegacyDownloader.ArgMax` | src/data/download/downloader.py:95 | `idxmax` gives the first position holding the largest distance |
| `LegacyDownloader.CheckVariableInStation` | src/data/download/downloader.py:161-168 | passes exactly when the variable is among the station's parameters |
| `LegacyDownloader.ClosestStationAsWritten` | src/data/download/downloader.py:73-98 | the first station at the location, leaving the distance alone; otherwise the first station at the largest distance, whose distance rounded to 2 decimals becomes the location's; no station raises; otherwise it raises, with the missing-variable error, exactly when that chosen station does not offer the variable |
| `LegacyDownloader.ClosestStation` | src/data/download/downloader.py:73-98 | as written, except the first nearest station is chosen when none is at the location; it raises exactly when the chosen station does not offer the variable |
| `LegacyDownloader.OfferingStationAtLocationIsChosen` | src/data/download/downloader.py:79-98 | a station at the location that offers the variable is chosen by both versions, whatever the other stations offer |
| `LegacyDownloader.ChoicesAgreeOnExactMatch` | src/data/download/downloader.py:80-81 | when a station sits at the location both versions choose the same |
| `LegacyDownloader.FarthestStationWitness` | src/data/download/downloader.py:84-96 | with stations 1 km and 100 km away, as written the 100 km one is chosen |
| `LegacyDownloader.RangeTag` | src/data/download/downloader.py:127 | the range tag contains no `-` |
| `LegacyDownloader.RangeTagParts` | src/data/download/downloader.py:127 | the tag is the start and end without dashes, joined by `_` |
| `LegacyDownloader.DefaultRangeTag` | src/data/download/downloader.py:49-50 | the default window gives `20190101_20210331` |
| `LegacyDownloader.OutputPath` | src/data/download/downloader.py:120-135 | the path ends in `_metadata.csv` for metadata and `.csv` otherwise |
| `LegacyDownloader.DataAndMetadataPathsShareStem` | src/data/download/downloader.py:128-134 | the data and metadata paths are equal up to their suffixes |
| `LegacyDownloader.DubaiOutputPath` | src/tests/test_downloader.py:11-16 | AE001 in Dubai, o3, default window: `dubai/ae001/o3_dubai_ae001_20190101_20210331` plus `.csv` or `_metadata.csv` under the output directory |
| `LegacyDownloader.InWindow` | src/data/download/downloader.py:150-153 | keeps exactly the rows with start < time ≤ end, each as often as it occurs |
| `LegacyDownloader.FilterMeasurements` | src/data/download/downloader.py:150-158 | keeps exactly the rows inside the window whose value is non-negative, each as often as it occurs |
| `LegacyDownloader.FilterMeasurementsOneRow` | src/data/download/downloader.py:150-158 | on one row it keeps that row exactly when it is inside the window with a non-negative value |
| `LegacyDownloader.FilterMeasurementsConcat` | src/data/download/downloader.py:150-158 | it distributes over concatenation, so kept rows keep their order |
| `Text.Lower` | src/data/download/downloader.py:124-125 | lower-casing keeps the length, maps each character, and leaves no upper-case letter |
| `Text.Remove` | src/data/download/downloader.py:127 | removing `-` leaves no `-` and keeps every other character's count |
| `Text.RemoveConcat` | src/data/download/downloader.py:127 | removal distributes over concatenation, keeping order |

## Findings

| source | as written | input that shows it | evidently intended | confidence | as-written member | corrected member |
|---|---|---|---|---|---|---|
| src/models/load_data.py:151-159 | `np.array(d.keys())` makes a 0-d object array holding the keys view; dividing it by the weight total raises `TypeError`, and `run` turns that into "There is not data for this variable". Line 159 also raises when no instant has a value, because `mean` has already removed the per-station coordinates it drops, so every dataset with several stations fails | two stations at 10 km and 20 km with values 1 and 4 at one instant | the weighted mean (0.1·1 + 0.05·4) / 0.15 = 2 | high; not executed | `Fusion.FuseAsWritten` (witnesses `Fusion.WeightArrayWitness`, `Fusion.AsWrittenAllMissingFailsOnDrop`, `Merging.RunAsWrittenFailsForSeveralStations`) | `Fusion.Fuse`, which assumes both lines repaired (`Fusion.FuseWithin`, `Fusion.DistinctWeightsAverage`; used by `Merging.Run`) |
| src/data/download/downloader.py:95 | `idxmax` chooses the station FARTHEST from the location as the "closest" one | two stations, neither at the location, 1 km and 100 km away | the nearest station, 1 km away (`idxmin`) | high; not executed | `LegacyDownloader.ClosestStationAsWritten` (witness `LegacyDownloader.FarthestStationWitness`) | `LegacyDownloader.ClosestStation` |
| src/data/extraction/openaq_obs.py:287-294 | the `long_name` table has entries for no2, o3 and pm25 only, so for so2 and pm10, which the constructor accepts, the lookup raises `KeyError`; `get_data` skips every station and raises "Not data was retrieved" | the variable so2 and a station listing it whose request succeeds | the station is fetched | high; not executed | `Extraction.FetchOne` with `Extraction.LongNames` (witnesses `Extraction.So2StationSkippedAsWritten`, `Extraction.UnnamedVariableIsNeverFetched`) | `Extraction.FetchOne` with `Extraction.IntendedLongNames` |

## Left out

- Great-circle (haversine) distance is trigonometric floating-point code; distances are inputs.
- Network and file I/O are left out: the OpenAQ API calls, the netCDF and CSV writing, the CF attributes, and the output-exists short-cut. The directory and the measurement service are parameters, and "cannot open the observations" is `None`.
- Surface pressure by the barometric formula is left out. It needs a non-integer power and an elevation lookup. The forecast's unit conversion is left out with it, and the forecast rows are inputs already in µg/m³.
- The local-time column is left out; it needs pytz timezone conversion.
- `DataLoader.__init__` is left out. It builds its paths with `Location` methods that `src/data/utils.py` does not define.
- Model training and evaluation code is not part of this model.
- Floating point: reals are exact. `round(x, 2)` is modelled as round half to even on the exact value. Binary floating-point representation can round a few halves the other way.
- `Fusion.Fuse`: with several stations, a distance of 0 gives numpy an infinite weight, so the model requires positive distances there. A single station is passed through at any distance, 0 included.
- `Fusion.FuseAsWritten`: it assumes the stations differ in longitude, latitude or distance. `xr.concat` stacks those coordinates along the station axis only when they differ, and only then does `mean` remove them, so that the drop at line 159 raises. Several stations with identical coordinates and distance are not modelled.
- `Merging.AirDensity`: requires a positive temperature, where numpy would give an infinity or a negative density.
- `Merging.Join`: `xr.merge` also adds rows for times only the observations have. Those rows lack a forecast, so `dropna` removes them; the model never builds them. The merged table is in time order, which the model keeps when the forecast times increase.
- `Ranking.SortByKey`: pandas' default quicksort does not fix the order of equal keys. The model keeps equal keys in input order.
- `Extraction.FetchOne`: `sort_index`, the conversion of the fetched table and the CF attributes are left out; the measurements pass through unchanged. Of building the dataset, only the long-name lookup is modelled, because it is the step that can fail.
- `LegacyDownloader.InWindow`: the window strings are compared as instants. Their parsing is left out, and the hour bounds are parameters.
- `LegacyDownloader.OutputPath`: `pathlib` normalisation is not modelled (repeated or trailing `/`, absolute components). Empty components vanish.
- `Text.Lower`: only ASCII letters are lowered.
- Sub-hour timestamps are left out: every instant is a whole hour.
- `LegacyDownloader.RangeTag`: the tag joins the values of the `time_range` dictionary in its insertion order. The model always takes start, then end, which is the order of the default dictionary.
- `LegacyDownloader.StationsInLocation`: a NaN coordinate, which `allclose` never matches, is not modelled; coordinates are reals.
- The command-line script `src/scripts/extraction_openaq.py` only parses arguments and calls the extraction downloader, so it is not part of this model.

=== FILE: common.dfy ===
/** Shared vocabulary of the model: optional values (a missing observation
    is `None`, the model's stand-in for NaN), the error kinds the pipeline
    raises, and the variables both downloaders accept. */
module Common {

  datatype Option<+T> = None | Some(value: T)

  /** The exceptions raised by the modelled code, one constructor per cause. */
  datatype Error =
    | UnknownVariable(name: string)        // constructor: variable not supported
    | NoStationsFound                      // the station directory answered with nothing
    | EmptyRequestedRange                  // coverage score divides by zero requested stamps
    | NoDataRetrieved                      // every ranked station failed to deliver data
    | VariableNotInStation(variable: string)
    | NoStationsInCity                     // idxmax over an empty distance column
    | NoGroundTruth                        // observations could not be opened or transformed
    | WeightArrayTypeError                 // division of a 0-d object array (see Fusion)
    | StationCoordinatesDropped            // dropping per-station coordinates `mean` already removed

  datatype Result<+T> = Ok(value: T) | Err(error: Error)

  /** One raw measurement: a timestamp in whole hours since 1970-01-01 UTC
      and the measured value. */
  datatype Measurement = Measurement(time: int, value: real)

  /** The variables both downloaders accept, in the order the source lists them. */
  const KnownVariables: seq<string> := ["o3", "no2", "so2", "pm10", "pm25"]

  predicate IsKnownVariable(variable: string) {
    variable in KnownVariables
  }

  /** The elements of `s` satisfying `p`, in their original order. */
  function Filter<T(!new)>(s: seq<T>, p: T -> bool): (r: seq<T>)
    ensures |r| <= |s|
    ensures forall x :: x in r <==> x in s && p(x)
    ensures forall x :: multiset(r)[x] == if p(x) then multiset(s)[x] else 0
  {
    if |s| == 0 then []
    else
      assert s == [s[0]] + s[1..];
      (if p(s[0]) then [s[0]] else []) + Filter(s[1..], p)
  }

  /** Filtering distributes over concatenation, which is what "original
      order is preserved" means for a filter. */
  lemma {:induction false} FilterConcat<T(!new)>(a: seq<T>, b: seq<T>, p: T -> bool)
    ensures Filter(a + b, p) == Filter(a, p) + Filter(b, p)
  {
    if |a| == 0 {
      assert a + b == b;
    } else {
      assert (a + b)[1..] == a[1..] + b;
      FilterConcat(a[1..], b, p);
    }
  }

  /** A filter whose predicate holds everywhere changes nothing. */
  lemma {:induction false} FilterAll<T(!new)>(s: seq<T>, p: T -> bool)
    requires forall i :: 0 <= i < |s| ==> p(s[i])
    ensures Filter(s, p) == s
  {
    if |s| > 0 {
      FilterAll(s[1..], p);
    }
  }

  /** The first `n` elements of `s`, or all of them when there are fewer. */
  function Take<T>(s: seq<T>, n: nat): (r: seq<T>)
    ensures |r| == if n < |s| then n else |s|
    ensures r <= s
  {
    if n < |s| then s[..n] else s
  }
}

=== FILE: coverage.dfy ===
/** Temporal coverage of a station: how much of the requested hourly range
    the station's availability interval covers (`get_closest_stations_to_location`
    in the extraction downloader). All instants are whole hours since
    1970-01-01 UTC. */
module Coverage {
  import opened Common

  const HoursPerDay: int := 24

  /** The requested [start, end] window; both ends are inclusive stamps. */
  datatype HourRange = HourRange(start: int, end: int)

  /** Midnight of the day containing hour `h` (the `'%Y-%m-%d'` truncation). */
  function DayFloor(h: int): (d: int)
    ensures d <= h < d + HoursPerDay
    ensures d % HoursPerDay == 0
  {
    (h / HoursPerDay) * HoursPerDay
  }

  /** Number of hourly stamps from `from` to `to`, both included. */
  function Stamps(from: int, to: int): (n: nat) {
    if from > to then 0 else to - from + 1
  }

  function MaxInt(a: int, b: int): int { if a >= b then a else b }
  function MinInt(a: int, b: int): int { if a <= b then a else b }

  /** The loop over the requested stamps that counts those lying on the grid
      [lo, hi]; its contract gives the count in closed form, the size of the
      overlap of the two hour intervals. */
  function CountOnGrid(from: int, to: int, lo: int, hi: int): (n: nat)
    decreases to - from
    ensures n <= Stamps(from, to)
    ensures n == Stamps(MaxInt(from, lo), MinInt(to, hi))
  {
    if from > to then 0
    else (if lo <= from <= hi then 1 else 0) + CountOnGrid(from + 1, to, lo, hi)
  }

  /** The requested window lies inside the station's availability interval. */
  predicate FullyCovered(requested: HourRange, first: int, last: int) {
    requested.start >= first && requested.end <= last
  }

  /** The requested window ends before the station's first update. */
  predicate EndsBeforeStation(requested: HourRange, first: int, last: int) {
    requested.end < first
  }

  const OutOfRange: real := -1.0

  /** The coverage score of a station available from `first` to `last`:
      1 when it covers the window, the sentinel -1 when the window ends before
      the station starts, and otherwise the fraction of requested hourly
      stamps lying on the station's hourly grid, which runs from the
      midnight of `first` to the midnight of `last`. With no requested stamps
      that fraction divides by zero. */
  function Score(requested: HourRange, first: int, last: int): (r: Result<real>)
    ensures FullyCovered(requested, first, last) ==> r == Ok(1.0)
    ensures r == Ok(OutOfRange) <==>
              !FullyCovered(requested, first, last) && EndsBeforeStation(requested, first, last)
    ensures r.Err? <==>
              !FullyCovered(requested, first, last) && !EndsBeforeStation(requested, first, last)
              && requested.start > requested.end
    ensures r.Err? ==> r.error == EmptyRequestedRange
    ensures r.Ok? && r.value != OutOfRange ==> 0.0 <= r.value <= 1.0
    ensures r.Ok? && r.value != OutOfRange && !FullyCovered(requested, first, last) ==>
              r.value * (Stamps(requested.start, requested.end) as real)
              == Stamps(MaxInt(requested.start, DayFloor(first)),
                        MinInt(requested.end, DayFloor(last))) as real
  {
    if FullyCovered(requested, first, last) then Ok(1.0)
    else if EndsBeforeStation(requested, first, last) then Ok(OutOfRange)
    else
      var total := Stamps(requested.start, requested.end);
      var covered := CountOnGrid(requested.start, requested.end, DayFloor(first), DayFloor(last));
      if total == 0 then Err(EmptyRequestedRange)
      else
        FractionOfWhole(covered, total);
        Ok(covered as real / total as real)
  }

  /** A part of a positive whole, as a fraction, lies in [0, 1] and scales
      back to the part. */
  lemma FractionOfWhole(part: nat, whole: nat)
    requires 0 < whole && part <= whole
    ensures 0.0 <= part as real / whole as real <= 1.0
    ensures (part as real / whole as real) * (whole as real) == part as real
  {
  }

  /** A station whose last update comes before the requested window keeps a
      score of 0 rather than the sentinel: only a window that ends before the
      station starts is excluded. */
  lemma StationEndingEarlyScoresZero(requested: HourRange, first: int, last: int)
    requires first <= last < requested.start <= requested.end
    ensures Score(requested, first, last) == Ok(0.0)
  {
    var covered := CountOnGrid(requested.start, requested.end, DayFloor(first), DayFloor(last));
    assert covered == 0;
  }

  /** A station whose grid, truncated to midnights, still spans the window
      scores 1 even though its exact interval starts inside the window's first day. */
  lemma GridTruncationCanGiveFullScore()
    ensures Score(HourRange(10, 20), 12, 100) == Ok(1.0)
  {
  }
}

=== FILE: downloader.dfy ===
/** The older single-station downloader (`OpenAQDownloader` of
    `src/data/download/downloader.py`): its constructor, the exact-location
    test, the station choice, the output paths and the measurement filter.
    The directory's stations and the great-circle distance to each are
    inputs. */
module LegacyDownloader {
  import opened Common
  import opened Numeric
  import opened Text
  import opened Locations

  /** The requested window as the two date strings the source keeps. */
  datatype TimeRange = TimeRange(start: string, end: string)

  const DefaultRange: TimeRange := TimeRange("2019-01-01", "2021-03-31")

  datatype Downloader = Downloader(
    location: Location,
    outputDir: string,
    variable: string,
    timeRange: TimeRange)

  /** The constructor: the default window is 2019-01-01 to 2021-03-31, and an
      unknown variable is rejected. */
  function NewDownloader(location: Location, outputDir: string, variable: string,
                         timeRange: Option<TimeRange>): (r: Result<Downloader>)
    ensures r.Ok? <==> variable in {"o3", "no2", "so2", "pm10", "pm25"}
    ensures r.Err? ==> r.error == UnknownVariable(variable)
    ensures r.Ok? ==> r.value.variable == variable && r.value.location == location
                      && r.value.outputDir == outputDir
    ensures r.Ok? ==> r.value.timeRange == if timeRange.None? then DefaultRange else timeRange.value
  {
    var range := if timeRange.None? then DefaultRange else timeRange.value;
    if IsKnownVariable(variable) then Ok(Downloader(location, outputDir, variable, range))
    else Err(UnknownVariable(variable))
  }

  /** A station of the directory's answer for the city. */
  datatype Station = Station(name: string, city: string, latitude: real, longitude: real,
                             parameters: seq<string>)

  /** The absolute tolerance `tol` of the exact-location test. */
  const Tolerance: real := 0.001

  /** numpy's default relative tolerance. */
  const RelativeTolerance: real := 0.00001

  function Abs(x: real): (a: real)
    ensures a >= 0.0 && (a == x || a == -x)
  {
    if x < 0.0 then -x else x
  }

  /** `np.isclose(a, b, atol=tol)`: the relative part scales with `b`, the
      location's coordinate, so the test is not symmetric. */
  predicate Close(a: real, b: real) {
    Abs(a - b) <= Tolerance + RelativeTolerance * Abs(b)
  }

  /** The station sits at the location: both coordinates close. */
  predicate InLocation(s: Station, location: Location) {
    Close(s.latitude, location.latitude) && Close(s.longitude, location.longitude)
  }

  /** For coordinates on the globe (at most 180 in magnitude), a match means
      both differences are at most 0.0028 degrees, and differences of at most
      0.001 degrees always match. */
  lemma CloseBounds(a: real, b: real)
    requires -180.0 <= b <= 180.0
    ensures Close(a, b) ==> Abs(a - b) <= 0.0028
    ensures Abs(a - b) <= Tolerance ==> Close(a, b)
  {
  }

  /** The relative tolerance makes the test asymmetric. */
  lemma CloseIsNotSymmetric()
    ensures Close(100.0 + 0.002, 100.0) && !Close(100.0, 100.0 + 0.002 + 0.00002)
  {
  }

  /** `get_stations_in_city`: the `is_in_location` flag of every station. */
  function StationsInLocation(stations: seq<Station>, location: Location): (flags: seq<bool>)
    ensures |flags| == |stations|
    ensures forall i :: 0 <= i < |stations| ==> (flags[i] <==> InLocation(stations[i], location))
  {
    seq(|stations|, i requires 0 <= i < |stations| => InLocation(stations[i], location))
  }

  /** Index of the first `true` flag, if any. */
  function FirstMatch(flags: seq<bool>): (r: Option<nat>)
    ensures r.None? <==> forall i :: 0 <= i < |flags| ==> !flags[i]
    ensures r.Some? ==> r.value < |flags| && flags[r.value]
                        && forall i :: 0 <= i < r.value ==> !flags[i]
  {
    if |flags| == 0 then None
    else if flags[0] then Some(0)
    else match FirstMatch(flags[1..])
      case None => None
      case Some(i) => Some(i + 1)
  }

  /** `idxmax`: the first position of the largest value. */
  function ArgMax(xs: seq<real>): (i: nat)
    requires |xs| > 0
    ensures i < |xs|
    ensures forall j :: 0 <= j < |xs| ==> xs[j] <= xs[i]
    ensures forall j :: 0 <= j < i ==> xs[j] < xs[i]
  {
    if |xs| == 1 then 0
    else
      var k := ArgMax(xs[1..]) + 1;
      if xs[0] >= xs[k] then 0 else k
  }

  /** The first position of the smallest value. */
  function ArgMin(xs: seq<real>): (i: nat)
    requires |xs| > 0
    ensures i < |xs|
    ensures forall j :: 0 <= j < |xs| ==> xs[i] <= xs[j]
    ensures forall j :: 0 <= j < i ==> xs[i] < xs[j]
  {
    if |xs| == 1 then 0
    else
      var k := ArgMin(xs[1..]) + 1;
      if xs[0] <= xs[k] then 0 else k
  }

  /** Station `i` is the first one at the location. */
  predicate FirstAtLocation(location: Location, stations: seq<Station>, i: int) {
    && 0 <= i < |stations|
    && InLocation(stations[i], location)
    && forall j :: 0 <= j < i ==> !InLocation(stations[j], location)
  }

  /** No station is at the location. */
  predicate NoneAtLocation(location: Location, stations: seq<Station>) {
    forall j :: 0 <= j < |stations| ==> !InLocation(stations[j], location)
  }

  /** Position `i` holds the largest distance and no earlier position does. */
  predicate FirstFarthest(distances: seq<real>, i: int) {
    && 0 <= i < |distances|
    && (forall j :: 0 <= j < |distances| ==> distances[j] <= distances[i])
    && (forall j :: 0 <= j < i ==> distances[j] < distances[i])
  }

  /** Position `i` holds the smallest distance and no earlier position does. */
  predicate FirstNearest(distances: seq<real>, i: int) {
    && 0 <= i < |distances|
    && (forall j :: 0 <= j < |distances| ==> distances[i] <= distances[j])
    && (forall j :: 0 <= j < i ==> distances[i] < distances[j])
  }

  /** At most one station is the first at the location. */
  lemma FirstAtLocationUnique(location: Location, stations: seq<Station>, i: int)
    requires FirstAtLocation(location, stations, i)
    ensures forall k :: FirstAtLocation(location, stations, k) ==> k == i
  {
  }

  /** At most one position is the first farthest. */
  lemma FirstFarthestUnique(distances: seq<real>, i: int)
    requires FirstFarthest(distances, i)
    ensures forall k :: FirstFarthest(distances, k) ==> k == i
  {
    forall k | FirstFarthest(distances, k) ensures k == i {
      assert distances[i] <= distances[k] && distances[k] <= distances[i];
    }
  }

  /** At most one position is the first nearest. */
  lemma FirstNearestUnique(distances: seq<real>, i: int)
    requires FirstNearest(distances, i)
    ensures forall k :: FirstNearest(distances, k) ==> k == i
  {
    forall k | FirstNearest(distances, k) ensures k == i {
      assert distances[i] <= distances[k] && distances[k] <= distances[i];
    }
  }

  /** The chosen station, its position in the answer, and the location's
      distance afterwards. */
  datatype Choice = Choice(index: nat, station: Station, locationDistance: real)

  /** `check_variable_in_station`: the variable must be one of the station's
      parameters. */
  function CheckVariableInStation(variable: string, station: Station): (r: Result<Station>)
    ensures r.Ok? <==> variable in station.parameters
    ensures r.Ok? ==> r.value == station
    ensures r.Err? ==> r.error == VariableNotInStation(variable)
  {
    if variable in station.parameters then Ok(station) else Err(VariableNotInStation(variable))
  }

  /** The choice after its variable check, shared by both versions below. */
  function Checked(variable: string, c: Choice): (r: Result<Choice>)
    ensures r.Ok? <==> variable in c.station.parameters
    ensures r.Ok? ==> r.value == c
    ensures r.Err? ==> r.error == VariableNotInStation(variable)
  {
    match CheckVariableInStation(variable, c.station)
    case Ok(_) => Ok(c)
    case Err(e) => Err(e)
  }

  /** `get_closest_station_to_location` as written: the first station at the
      location when there is one, leaving the location's distance alone;
      otherwise the station at the LARGEST distance (`idxmax`), whose
      distance rounded to two decimals becomes the location's. With no
      station at all `idxmax` raises. `distances[i]` is the great-circle
      distance from the location to `stations[i]`. */
  function ClosestStationAsWritten(d: Downloader, stations: seq<Station>, distances: seq<real>): (r: Result<Choice>)
    requires |distances| == |stations|
    ensures |stations| == 0 ==> r == Err(NoStationsInCity)
    ensures |stations| > 0 && (forall s :: s in stations ==> d.variable in s.parameters) ==> r.Ok?
    ensures |stations| > 0 && r.Err? ==> r.error == VariableNotInStation(d.variable)
    ensures r.Ok? ==> r.value.index < |stations| && r.value.station == stations[r.value.index]
    ensures r.Ok? ==> d.variable in r.value.station.parameters
    ensures r.Ok? && (exists i :: 0 <= i < |stations| && InLocation(stations[i], d.location)) ==>
              InLocation(r.value.station, d.location)
              && (forall j :: 0 <= j < r.value.index ==> !InLocation(stations[j], d.location))
              && r.value.locationDistance == d.location.distance
    ensures r.Ok? && (forall i :: 0 <= i < |stations| ==> !InLocation(stations[i], d.location)) ==>
              (forall j :: 0 <= j < |stations| ==> distances[j] <= distances[r.value.index])
              && (forall j :: 0 <= j < r.value.index ==> distances[j] < distances[r.value.index])
              && r.value.locationDistance == Round2(distances[r.value.index])
    ensures forall i :: FirstAtLocation(d.location, stations, i) ==>
              (r.Err? <==> d.variable !in stations[i].parameters)
    ensures forall i :: NoneAtLocation(d.location, stations) && FirstFarthest(distances, i) ==>
              (r.Err? <==> d.variable !in stations[i].parameters)
  {
    var flags := StationsInLocation(stations, d.location);
    match FirstMatch(flags)
    case Some(i) =>
      FirstAtLocationUnique(d.location, stations, i);
      Checked(d.variable, Choice(i, stations[i], d.location.distance))
    case None =>
      if |stations| == 0 then Err(NoStationsInCity)
      else
        var i := ArgMax(distances);
        FirstFarthestUnique(distances, i);
        Checked(d.variable, Choice(i, stations[i], Round2(distances[i])))
  }

  /** The station choice as evidently intended: the NEAREST station when none
      sits at the location. */
  function ClosestStation(d: Downloader, stations: seq<Station>, distances: seq<real>): (r: Result<Choice>)
    requires |distances| == |stations|
    ensures |stations| == 0 ==> r == Err(NoStationsInCity)
    ensures |stations| > 0 && (forall s :: s in stations ==> d.variable in s.parameters) ==> r.Ok?
    ensures |stations| > 0 && r.Err? ==> r.error == VariableNotInStation(d.variable)
    ensures r.Ok? ==> r.value.index < |stations| && r.value.station == stations[r.value.index]
    ensures r.Ok? ==> d.variable in r.value.station.parameters
    ensures r.Ok? && (exists i :: 0 <= i < |stations| && InLocation(stations[i], d.location)) ==>
              InLocation(r.value.station, d.location)
              && (forall j :: 0 <= j < r.value.index ==> !InLocation(stations[j], d.location))
              && r.value.locationDistance == d.location.distance
    ensures r.Ok? && (forall i :: 0 <= i < |stations| ==> !InLocation(stations[i], d.location)) ==>
              (forall j :: 0 <= j < |stations| ==> distances[r.value.index] <= distances[j])
              && (forall j :: 0 <= j < r.value.index ==> distances[r.value.index] < distances[j])
              && r.value.locationDistance == Round2(distances[r.value.index])
    ensures forall i :: FirstAtLocation(d.location, stations, i) ==>
              (r.Err? <==> d.variable !in stations[i].parameters)
    ensures forall i :: NoneAtLocation(d.location, stations) && FirstNearest(distances, i) ==>
              (r.Err? <==> d.variable !in stations[i].parameters)
  {
    var flags := StationsInLocation(stations, d.location);
    match FirstMatch(flags)
    case Some(i) =>
      FirstAtLocationUnique(d.location, stations, i);
      Checked(d.variable, Choice(i, stations[i], d.location.distance))
    case None =>
      if |stations| == 0 then Err(NoStationsInCity)
      else
        var i := ArgMin(distances);
        FirstNearestUnique(distances, i);
        Checked(d.variable, Choice(i, stations[i], Round2(distances[i])))
  }

  /** The two versions agree whenever some station sits at the location. */
  lemma ChoicesAgreeOnExactMatch(d: Downloader, stations: seq<Station>, distances: seq<real>, k: int)
    requires |distances| == |stations|
    requires 0 <= k < |stations| && InLocation(stations[k], d.location)
    ensures ClosestStationAsWritten(d, stations, distances) == ClosestStation(d, stations, distances)
  {
    var flags := StationsInLocation(stations, d.location);
    assert flags[k];
  }

  /** A station at the location that offers the variable is chosen, in both
      versions, whatever the other stations offer. */
  lemma OfferingStationAtLocationIsChosen(d: Downloader, stations: seq<Station>, distances: seq<real>, k: int)
    requires |distances| == |stations|
    requires FirstAtLocation(d.location, stations, k) && d.variable in stations[k].parameters
    ensures ClosestStationAsWritten(d, stations, distances) == Ok(Choice(k, stations[k], d.location.distance))
    ensures ClosestStation(d, stations, distances) == Ok(Choice(k, stations[k], d.location.distance))
  {
    var flags := StationsInLocation(stations, d.location);
    assert flags[k];
    FirstAtLocationUnique(d.location, stations, k);
  }

  /** A station 1 km away and another 100 km away, neither at the location:
      as written the far one is chosen and the location's distance becomes
      100; the corrected choice takes the near one. */
  lemma FarthestStationWitness(d: Downloader, near: Station, far: Station)
    requires !InLocation(near, d.location) && !InLocation(far, d.location)
    requires d.variable in near.parameters && d.variable in far.parameters
    ensures ClosestStationAsWritten(d, [near, far], [1.0, 100.0]) == Ok(Choice(1, far, 100.0))
    ensures ClosestStation(d, [near, far], [1.0, 100.0]) == Ok(Choice(0, near, 1.0))
  {
    var stations := [near, far];
    var flags := StationsInLocation(stations, d.location);
    assert FirstMatch(flags).None?;
    assert ArgMax([1.0, 100.0]) == 1;
    assert ArgMin([1.0, 100.0]) == 0;
    RoundWholeNumber(100);
    RoundWholeNumber(10000);
    assert 100.0 * 100.0 == 10000 as real;
    assert Round2(100.0) == 100.0;
    RoundWholeNumber(1);
    RoundWholeNumber(100);
    assert 1.0 * 100.0 == 100 as real;
    assert Round2(1.0) == 1.0;
  }

  /** `'_'.join(time_range.values()).replace('-', '')`. */
  function RangeTag(t: TimeRange): (tag: string)
    ensures '-' !in tag
  {
    Remove(JoinWith([t.start, t.end], "_"), '-')
  }

  /** The tag is the two dates with their dashes removed, joined by `_`. */
  lemma RangeTagParts(t: TimeRange)
    ensures RangeTag(t) == Remove(t.start, '-') + "_" + Remove(t.end, '-')
  {
    assert JoinWith([t.start, t.end], "_") == t.start + "_" + t.end by {
      assert [t.start, t.end][1..] == [t.end];
    }
    RemoveConcat(t.start + "_", t.end, '-');
    RemoveConcat(t.start, "_", '-');
    RemoveAbsent("_", '-');
  }

  const DataSuffix: string := ".csv"
  const MetadataSuffix: string := "_metadata.csv"

  /** The file name without its extension. */
  function FileStem(d: Downloader): string {
    d.variable + "_" + Lower(d.location.city) + "_" + Lower(d.location.locationId) + "_" + RangeTag(d.timeRange)
  }

  /** The directory `<dir>/<city>/<id>` with city and id lower-cased. */
  function OutputDirectory(d: Downloader): string {
    PathJoin(PathJoin(d.outputDir, Lower(d.location.city)), Lower(d.location.locationId))
  }

  /** `get_output_path`: `<dir>/<city>/<id>/<variable>_<city>_<id>_<range><ext>`
      with city and id lower-cased; the extension is `.csv` for the data and
      `_metadata.csv` for the metadata. */
  function OutputPath(d: Downloader, isMetadata: bool): (p: string)
    ensures var ext := if isMetadata then MetadataSuffix else DataSuffix;
            |p| >= |ext| && p[|p| - |ext|..] == ext
  {
    var ext := if isMetadata then MetadataSuffix else DataSuffix;
    PathJoin(OutputDirectory(d), FileStem(d) + ext)
  }

  /** The data and metadata paths share everything up to their suffixes. */
  lemma DataAndMetadataPathsShareStem(d: Downloader)
    ensures var data := OutputPath(d, false);
            var meta := OutputPath(d, true);
            && |data| >= |DataSuffix| && |meta| >= |MetadataSuffix|
            && data[..|data| - |DataSuffix|] == meta[..|meta| - |MetadataSuffix|]
  {
    var dir := OutputDirectory(d);
    var stem := FileStem(d);
    var prefix := if dir == "" then stem else dir + "/" + stem;
    assert OutputPath(d, false) == prefix + DataSuffix;
    assert OutputPath(d, true) == prefix + MetadataSuffix;
    assert (prefix + DataSuffix)[..|prefix|] == prefix;
    assert (prefix + MetadataSuffix)[..|prefix|] == prefix;
  }

  /** Removing the dashes of an ISO date `yyyy-mm-dd`. */
  lemma RemoveDateDashes(y: string, mo: string, da: string)
    requires '-' !in y && '-' !in mo && '-' !in da
    ensures Remove(y + "-" + mo + "-" + da, '-') == y + mo + da
  {
    var a := y + "-";
    var b := a + mo;
    var c := b + "-";
    assert Remove("-", '-') == "" by {
      assert "-"[1..] == "";
    }
    assert Remove(a, '-') == y by {
      RemoveConcat(y, "-", '-');
      RemoveAbsent(y, '-');
      assert y + "" == y;
    }
    assert Remove(b, '-') == y + mo by {
      RemoveConcat(a, mo, '-');
      RemoveAbsent(mo, '-');
    }
    assert Remove(c, '-') == y + mo by {
      RemoveConcat(b, "-", '-');
      assert y + mo + "" == y + mo;
    }
    assert Remove(c + da, '-') == y + mo + da by {
      RemoveConcat(c, da, '-');
      RemoveAbsent(da, '-');
    }
  }

  /** The default window gives the tag `20190101_20210331`. */
  lemma DefaultRangeTag(t: TimeRange)
    requires t.start == "2019-01-01" && t.end == "2021-03-31"
    ensures RangeTag(t) == "20190101_20210331"
  {
    RangeTagParts(t);
    assert Remove(t.start, '-') == "20190101" by {
      assert t.start == "2019" + "-" + "01" + "-" + "01";
      assert "20190101" == "2019" + "01" + "01";
      RemoveDateDashes("2019", "01", "01");
    }
    assert Remove(t.end, '-') == "20210331" by {
      assert t.end == "2021" + "-" + "03" + "-" + "31";
      assert "20210331" == "2021" + "03" + "31";
      RemoveDateDashes("2021", "03", "31");
    }
    assert "20190101" + "_" + "20210331" == "20190101_20210331";
  }

  /** The city and station id of the Dubai test, lower-cased. */
  lemma DubaiNamesLowered()
    ensures Lower("Dubai") == "dubai" && Lower("AE001") == "ae001"
  {
    assert "Dubai"[1..] == "ubai" && "ubai"[1..] == "bai" && "bai"[1..] == "ai" && "ai"[1..] == "i" && "i"[1..] == "";
    assert "AE001"[1..] == "E001" && "E001"[1..] == "001" && "001"[1..] == "01" && "01"[1..] == "1" && "1"[1..] == "";
  }

  /** The Dubai path assembled piece by piece, spelled as one literal. */
  lemma DubaiPathSpelling(outputDir: string, ext: string)
    ensures outputDir + "/" + "dubai" + "/" + "ae001" + "/" + ("o3" + "_" + "dubai" + "_" + "ae001" + "_" + "20190101_20210331" + ext)
            == outputDir + "/dubai/ae001/" + "o3_dubai_ae001_20190101_20210331" + ext
  {
    assert "/" + "dubai" + "/" + "ae001" + "/" == "/dubai/ae001/";
    assert "o3" + "_" + "dubai" + "_" + "ae001" + "_" + "20190101_20210331" == "o3_dubai_ae001_20190101_20210331";
  }

  /** The stem and directory of the Dubai download, piece by piece. */
  lemma DubaiStemAndDirectory(d: Downloader)
    requires d.outputDir != "" && d.variable == "o3" && d.timeRange == DefaultRange
    requires d.location.city == "Dubai" && d.location.locationId == "AE001"
    ensures FileStem(d) == "o3" + "_" + "dubai" + "_" + "ae001" + "_" + "20190101_20210331"
    ensures OutputDirectory(d) == d.outputDir + "/" + "dubai" + "/" + "ae001"
  {
    DubaiNamesLowered();
    DefaultRangeTag(d.timeRange);
  }

  /** The Dubai download with the default window lands where the test expects. */
  lemma DubaiOutputPath(d: Downloader)
    requires d.outputDir != "" && d.variable == "o3" && d.timeRange == DefaultRange
    requires d.location.city == "Dubai" && d.location.locationId == "AE001"
    ensures OutputPath(d, false) == d.outputDir + "/dubai/ae001/" + "o3_dubai_ae001_20190101_20210331" + ".csv"
    ensures OutputPath(d, true) == d.outputDir + "/dubai/ae001/" + "o3_dubai_ae001_20190101_20210331" + "_metadata.csv"
  {
    DubaiStemAndDirectory(d);
    DubaiPathSpelling(d.outputDir, DataSuffix);
    DubaiPathSpelling(d.outputDir, MetadataSuffix);
  }

  /** The first mask of `get_data`: rows strictly after the start and up to
      the end of the window. Instants are the parsed window bounds in hours. */
  function InWindow(ms: seq<Measurement>, start: int, end: int): (r: seq<Measurement>)
    ensures forall m :: m in r <==> m in ms && start < m.time <= end
    ensures forall m :: multiset(r)[m] == if start < m.time <= end then multiset(ms)[m] else 0
  {
    if |ms| == 0 then []
    else
      assert ms == [ms[0]] + ms[1..];
      (if start < ms[0].time <= end then [ms[0]] else []) + InWindow(ms[1..], start, end)
  }

  predicate NonNegative(m: Measurement) {
    m.value >= 0.0
  }

  /** `get_data` after the request: the window mask, then the rows with a
      non-negative value. */
  function FilterMeasurements(ms: seq<Measurement>, start: int, end: int): (r: seq<Measurement>)
    ensures forall m :: m in r <==> m in ms && start < m.time <= end && m.value >= 0.0
    ensures forall m :: multiset(r)[m] == if start < m.time <= end && m.value >= 0.0 then multiset(ms)[m] else 0
  {
    Filter(InWindow(ms, start, end), NonNegative)
  }

  lemma {:induction false} InWindowConcat(a: seq<Measurement>, b: seq<Measurement>, start: int, end: int)
    ensures InWindow(a + b, start, end) == InWindow(a, start, end) + InWindow(b, start, end)
  {
    if |a| == 0 {
      assert a + b == b;
    } else {
      assert (a + b)[1..] == a[1..] + b;
      InWindowConcat(a[1..], b, start, end);
    }
  }

  /** On one row the filter keeps exactly a row inside the window with a
      non-negative value. */
  lemma FilterMeasurementsOneRow(m: Measurement, start: int, end: int)
    ensures FilterMeasurements([m], start, end) == if start < m.time <= end && m.value >= 0.0 then [m] else []
  {
    assert [m][1..] == [];
    var w := InWindow([m], start, end);
    assert w == (if start < m.time <= end then [m] else []) + InWindow([], start, end);
    if start < m.time <= end {
      assert Filter(w, NonNegative) == (if NonNegative(m) then [m] else []) + Filter([], NonNegative);
    }
  }

  /** On a concatenation the filter is the concatenation of the filtered
      parts, so the kept rows keep their order. */
  lemma FilterMeasurementsConcat(a: seq<Measurement>, b: seq<Measurement>, start: int, end: int)
    ensures FilterMeasurements(a + b, start, end) == FilterMeasurements(a, start, end) + FilterMeasurements(b, start, end)
  {
    InWindowConcat(a, b, start, end);
    FilterConcat(InWindow(a, start, end), InWindow(b, start, end), NonNegative);
  }
}

=== FILE: extraction.dfy ===
/** The extraction downloader (`OpenAQDownloader` of
    `src/data/extraction/openaq_obs.py`): its constructor, the per-station
    variable check, the fetch loop over ranked stations, and the pipeline
    from the directory's answer to the fetched series. The directory and
    measurement services are parameters: a station list and a function from
    station to the measurements it returns, `None` when the request raises. */
module Extraction {
  import opened Common
  import opened Coverage
  import opened Ranking
  import opened Locations

  /** 2019-06-01T00:00 and 2021-03-31T00:00 UTC, in hours since 1970-01-01. */
  const DefaultStart: int := 18048 * HoursPerDay
  const DefaultEnd: int := 18717 * HoursPerDay

  /** At most this many stations are fetched. */
  const MaxStations: nat := 5

  datatype Extractor = Extractor(
    location: Location,
    outputDir: string,
    variable: string,
    timeRange: HourRange)

  /** `OpenAQDownloader.__init__`: the default window is 2019-06-01 to
      2021-03-31, and an unknown variable is rejected. */
  function NewExtractor(location: Location, outputDir: string, variable: string,
                        timeRange: Option<HourRange>): (r: Result<Extractor>)
    ensures r.Ok? <==> variable in {"o3", "no2", "so2", "pm10", "pm25"}
    ensures r.Err? ==> r.error == UnknownVariable(variable)
    ensures r.Ok? ==> r.value.variable == variable && r.value.location == location
    ensures r.Ok? ==> r.value.outputDir == outputDir
    ensures r.Ok? && timeRange.None? ==> r.value.timeRange == HourRange(DefaultStart, DefaultEnd)
    ensures r.Ok? && timeRange.Some? ==> r.value.timeRange == timeRange.value
  {
    var range := if timeRange.None? then HourRange(DefaultStart, DefaultEnd) else timeRange.value;
    if IsKnownVariable(variable) then Ok(Extractor(location, outputDir, variable, range))
    else Err(UnknownVariable(variable))
  }

  /** `check_variable_in_station`: the station must list the variable among
      the `parameter` names of its parameters. */
  function CheckVariableInStation(variable: string, station: Station): (r: Result<Station>)
    ensures r.Ok? <==> exists i :: 0 <= i < |station.parameters| && station.parameters[i].parameter == variable
    ensures r.Ok? ==> r.value == station
    ensures r.Err? ==> r.error == VariableNotInStation(variable)
  {
    if exists i :: 0 <= i < |station.parameters| && station.parameters[i].parameter == variable
    then Ok(station)
    else Err(VariableNotInStation(variable))
  }

  /** One fetched station: its identity, coordinates and distance with the
      measurements returned for it. */
  datatype StationSeries = StationSeries(
    stationId: int,
    latitude: real,
    longitude: real,
    distance: real,
    measurements: seq<Measurement>)

  /** The variables `create_xarray_dataset_with_attrs` has a long name for.
      Building a station's dataset looks the variable up in that table, and
      a variable missing from it raises a KeyError. */
  const LongNames: set<string> := {"no2", "o3", "pm25"}

  /** The table as evidently intended: every variable the constructor
      accepts has a long name. */
  const IntendedLongNames: set<string> := {"o3", "no2", "so2", "pm10", "pm25"}

  /** `_get_data` for one station: the variable check, the request, then the
      dataset built with the variable's long name from `longNames`; any of
      the three failing skips the station. */
  function FetchOne(longNames: set<string>, variable: string, station: Station,
                    measure: Station -> Option<seq<Measurement>>): (r: Option<StationSeries>)
    ensures r.Some? <==> CheckVariableInStation(variable, station).Ok? && measure(station).Some?
                         && variable in longNames
    ensures r.Some? ==> r.value.stationId == station.id && r.value.distance == station.distance
                        && r.value.measurements == measure(station).value
  {
    if CheckVariableInStation(variable, station).Err? then None
    else match measure(station)
      case None => None
      case Some(data) =>
        if variable !in longNames then None
        else Some(StationSeries(station.id, station.latitude, station.longitude, station.distance, data))
  }

  /** Every station that delivers data, in ranked order. */
  function Successes(longNames: set<string>, variable: string, ranked: seq<Scored>,
                     measure: Station -> Option<seq<Measurement>>): seq<StationSeries>
  {
    if |ranked| == 0 then []
    else
      var last := FetchOne(longNames, variable, ranked[|ranked| - 1].station, measure);
      Successes(longNames, variable, ranked[..|ranked| - 1], measure) + (if last.Some? then [last.value] else [])
  }

  lemma {:induction false} SuccessesBound(longNames: set<string>, variable: string, ranked: seq<Scored>,
                                         measure: Station -> Option<seq<Measurement>>)
    ensures |Successes(longNames, variable, ranked, measure)| <= |ranked|
  {
    if |ranked| > 0 {
      SuccessesBound(longNames, variable, ranked[..|ranked| - 1], measure);
    }
  }

  lemma {:induction false} SuccessesPrefix(longNames: set<string>, variable: string, ranked: seq<Scored>, i: nat,
                                          measure: Station -> Option<seq<Measurement>>)
    requires i <= |ranked|
    ensures Successes(longNames, variable, ranked[..i], measure) <= Successes(longNames, variable, ranked, measure)
    decreases |ranked| - i
  {
    if i < |ranked| {
      SuccessesPrefix(longNames, variable, ranked, i + 1, measure);
      assert ranked[..i + 1][..i] == ranked[..i];
    } else {
      assert ranked[..i] == ranked;
    }
  }

  /** A variable without a long name is fetched from no station at all. */
  lemma {:induction false} UnnamedVariableIsNeverFetched(longNames: set<string>, variable: string,
                                                        ranked: seq<Scored>,
                                                        measure: Station -> Option<seq<Measurement>>)
    requires variable !in longNames
    ensures Successes(longNames, variable, ranked, measure) == []
  {
    if |ranked| > 0 {
      UnnamedVariableIsNeverFetched(longNames, variable, ranked[..|ranked| - 1], measure);
    }
  }

  /** A station listing so2 whose request succeeds: as written it is skipped,
      since so2 has no long name; with the intended table it is fetched. */
  lemma So2StationSkippedAsWritten(station: Station, measure: Station -> Option<seq<Measurement>>)
    requires |station.parameters| > 0 && station.parameters[0].parameter == "so2"
    requires measure(station).Some?
    ensures FetchOne(LongNames, "so2", station, measure).None?
    ensures FetchOne(IntendedLongNames, "so2", station, measure).Some?
  {
    assert "so2" != "no2" && "so2" != "o3" && "so2" != "pm25";
  }

  /** `get_data`: visit the ranked stations in order, skip every station
      whose fetch fails, stop right after the fifth success, and fail when
      nothing was fetched. The result is the first (up to five) successes. */
  method FetchData(longNames: set<string>, variable: string, ranked: seq<Scored>,
                   measure: Station -> Option<seq<Measurement>>)
    returns (r: Result<seq<StationSeries>>)
    ensures r.Err? <==> |Successes(longNames, variable, ranked, measure)| == 0
    ensures r.Err? ==> r.error == NoDataRetrieved
    ensures r.Ok? ==> 1 <= |r.value| <= MaxStations
    ensures r.Ok? ==> |r.value| <= |ranked|
    ensures r.Ok? ==> r.value == Take(Successes(longNames, variable, ranked, measure), MaxStations)
  {
    var downloaded: nat := 0;
    var datasets: seq<StationSeries> := [];
    var i := 0;
    while i < |ranked|
      invariant 0 <= i <= |ranked|
      invariant datasets == Successes(longNames, variable, ranked[..i], measure)
      invariant downloaded == |datasets| < MaxStations
    {
      var fetched := FetchOne(longNames, variable, ranked[i].station, measure);
      assert ranked[..i + 1][..i] == ranked[..i];
      if fetched.Some? {
        datasets := datasets + [fetched.value];
        downloaded := downloaded + 1;
        if downloaded == MaxStations {
          SuccessesPrefix(longNames, variable, ranked, i + 1, measure);
          break;
        }
      }
      i := i + 1;
    }
    if i == |ranked| {
      assert ranked[..i] == ranked;
    }
    SuccessesPrefix(longNames, variable, ranked, i, measure);
    SuccessesBound(longNames, variable, ranked, measure);
    if |datasets| == 0 {
      assert i == |ranked|;
      return Err(NoDataRetrieved);
    }
    return Ok(datasets);
  }

  /** A station the pipeline may fetch from: one of the directory's answer,
      reference grade whenever the answer holds a reference-grade station,
      and not scored out of range over `range`. */
  predicate Eligible(directory: seq<Station>, range: HourRange, s: Station) {
    && s in directory
    && ((exists j :: 0 <= j < |directory| && IsReferenceGrade(directory[j])) ==> IsReferenceGrade(s))
    && Score(range, s.firstUpdated, s.lastUpdated).Ok?
    && Score(range, s.firstUpdated, s.lastUpdated).value != OutOfRange
  }

  /** The series was fetched from an eligible station. */
  predicate FromEligible(directory: seq<Station>, range: HourRange, x: StationSeries) {
    exists s :: s in directory && Eligible(directory, range, s) && s.id == x.stationId && s.distance == x.distance
  }

  /** The stations `get_data` visits, in order, when selection and ranking
      succeed. */
  function RankedStations(directory: seq<Station>, range: HourRange): Option<seq<Scored>> {
    var candidates := SelectCandidates(directory);
    if candidates.Err? || Rank(range, candidates.value).Err? then None
    else Some(Rank(range, candidates.value).value)
  }

  /** `get_closest_stations_to_location` followed by `get_data`: select the
      candidates, rank them over the extractor's window and fetch. The source
      builds each dataset with the table `LongNames`; `IntendedLongNames`
      gives the evident intention. */
  method Extract(longNames: set<string>, extractor: Extractor, directory: seq<Station>,
                 measure: Station -> Option<seq<Measurement>>)
    returns (r: Result<seq<StationSeries>>)
    ensures directory == [] ==> r == Err(NoStationsFound)
    ensures directory != [] && RankedStations(directory, extractor.timeRange).None? ==>
              r == Err(EmptyRequestedRange)
    ensures RankedStations(directory, extractor.timeRange).Some? ==>
              var ranked := RankedStations(directory, extractor.timeRange).value;
              && (r.Err? <==> |Successes(longNames, extractor.variable, ranked, measure)| == 0)
              && (r.Err? ==> r.error == NoDataRetrieved)
              && (r.Ok? ==> r.value == Take(Successes(longNames, extractor.variable, ranked, measure), MaxStations))
    ensures extractor.variable !in longNames ==> r.Err?
    ensures r.Ok? ==> 1 <= |r.value| <= MaxStations
    ensures r.Ok? ==> forall k :: 0 <= k < |r.value| ==> FromEligible(directory, extractor.timeRange, r.value[k])
  {
    var candidates := SelectCandidates(directory);
    if candidates.Err? {
      return Err(candidates.error);
    }
    var ranked := Rank(extractor.timeRange, candidates.value);
    if ranked.Err? {
      return Err(ranked.error);
    }
    assert RankedStations(directory, extractor.timeRange) == Some(ranked.value);
    if extractor.variable !in longNames {
      UnnamedVariableIsNeverFetched(longNames, extractor.variable, ranked.value, measure);
    }
    r := FetchData(longNames, extractor.variable, ranked.value, measure);
    if r.Ok? {
      FetchedAreEligible(longNames, extractor, directory, measure, ranked.value, r.value);
    }
  }

  /** Every series among the first successes comes from an eligible station. */
  lemma FetchedAreEligible(longNames: set<string>, extractor: Extractor, directory: seq<Station>,
                           measure: Station -> Option<seq<Measurement>>, ranked: seq<Scored>,
                           fetched: seq<StationSeries>)
    requires SelectCandidates(directory).Ok?
    requires Rank(extractor.timeRange, SelectCandidates(directory).value) == Ok(ranked)
    requires fetched == Take(Successes(longNames, extractor.variable, ranked, measure), MaxStations)
    ensures forall k :: 0 <= k < |fetched| ==> FromEligible(directory, extractor.timeRange, fetched[k])
  {
    forall k | 0 <= k < |fetched|
      ensures FromEligible(directory, extractor.timeRange, fetched[k])
    {
      assert fetched[k] in Successes(longNames, extractor.variable, ranked, measure);
      var m := SuccessFromRanked(longNames, extractor.variable, ranked, measure, fetched[k]);
      RankedIsEligible(directory, extractor.timeRange, ranked[m]);
    }
  }

  lemma RankedIsEligible(directory: seq<Station>, range: HourRange, x: Scored)
    requires SelectCandidates(directory).Ok?
    requires Rank(range, SelectCandidates(directory).value).Ok?
    requires x in Rank(range, SelectCandidates(directory).value).value
    ensures Eligible(directory, range, x.station)
  {
    var candidates := SelectCandidates(directory).value;
    RankKeepsExactlyInRange(range, candidates);
    assert x.station in candidates;
  }

  /** Every success comes from some ranked station with the same identity. */
  lemma {:induction false} SuccessFromRanked(longNames: set<string>, variable: string, ranked: seq<Scored>,
                                            measure: Station -> Option<seq<Measurement>>,
                                            x: StationSeries)
    returns (m: nat)
    requires x in Successes(longNames, variable, ranked, measure)
    ensures m < |ranked|
    ensures ranked[m].station.id == x.stationId && ranked[m].station.distance == x.distance
  {
    var n := |ranked| - 1;
    var last := FetchOne(longNames, variable, ranked[n].station, measure);
    if last.Some? && x == last.value {
      m := n;
    } else {
      m := SuccessFromRanked(longNames, variable, ranked[..n], measure, x);
    }
  }
}

=== FILE: fusion.dfy ===
/** Inverse-distance fusion of several stations into one series
    (`DataLoader.weight_average_with_distance` of `src/models/load_data.py`).
    At each instant the present values are collected in a dictionary keyed by
    the rounded weight `round(1/d, 2)`, so two stations whose weights round
    alike share one entry and the later one's value wins; the fused value is
    the weighted mean over the dictionary's entries. */
module Fusion {
  import opened Common
  import opened Numeric
  import opened Observations

  predicate PositiveDistances(cols: seq<Column>) {
    forall k :: 0 <= k < |cols| ==> cols[k].distance > 0.0
  }

  /** Every column has a value (present or missing) at instant `i`. */
  predicate HasInstant(cols: seq<Column>, i: int) {
    0 <= i && forall k :: 0 <= k < |cols| ==> i < |cols[k].values|
  }

  /** `round(1 / distance, 2)`. */
  function Weight(distance: real): (w: real)
    requires distance > 0.0
    ensures w >= 0.0
    ensures -0.005 <= w - 1.0 / distance <= 0.005
    ensures w * 100.0 == (w * 100.0).Floor as real
    ensures var h := 1.0 / distance * 100.0;
            h - (h.Floor as real) == 0.5 ==> (w * 100.0).Floor % 2 == 0
  {
    Round2(1.0 / distance)
  }

  /** A dictionary from weight to value: no weight appears twice. */
  predicate UniqueKeys(es: seq<Entry>) {
    forall i, j :: 0 <= i < j < |es| ==> es[i].weight != es[j].weight
  }

  /** `d[w] = v`: an existing key keeps its place and takes the new value,
      a new key is appended. */
  function Put(es: seq<Entry>, w: real, v: real): (r: seq<Entry>)
    requires UniqueKeys(es)
    ensures UniqueKeys(r)
    ensures Entry(w, v) in r
    ensures forall e :: e in r ==> e == Entry(w, v) || (e in es && e.weight != w)
    ensures forall e :: e in es && e.weight != w ==> e in r
  {
    if |es| == 0 then [Entry(w, v)]
    else
      UniqueTail(es);
      if es[0].weight == w then
        PrependUnique(Entry(w, v), es[1..]);
        [Entry(w, v)] + es[1..]
      else
        var rest := Put(es[1..], w, v);
        PrependUnique(es[0], rest);
        [es[0]] + rest
  }

  /** Without its first entry a dictionary still has unique keys, none of
      them the first entry's. */
  lemma UniqueTail(es: seq<Entry>)
    requires |es| > 0 && UniqueKeys(es)
    ensures UniqueKeys(es[1..])
    ensures forall e :: e in es[1..] ==> e.weight != es[0].weight
    ensures forall e :: e in es ==> e == es[0] || e in es[1..]
  {
    var tail := es[1..];
    forall i, j | 0 <= i < j < |tail| ensures tail[i].weight != tail[j].weight {
      assert tail[i] == es[i + 1] && tail[j] == es[j + 1];
    }
    forall e | e in tail ensures e.weight != es[0].weight {
      var j :| 0 <= j < |tail| && tail[j] == e;
      assert es[j + 1] == e;
    }
  }

  /** An entry whose key is new may go in front. */
  lemma PrependUnique(x: Entry, es: seq<Entry>)
    requires UniqueKeys(es)
    requires forall e :: e in es ==> e.weight != x.weight
    ensures UniqueKeys([x] + es)
  {
    var r := [x] + es;
    forall i, j | 0 <= i < j < |r| ensures r[i].weight != r[j].weight {
      if i > 0 {
        assert r[i] == es[i - 1] && r[j] == es[j - 1];
      } else {
        assert r[j] in es;
      }
    }
  }

  /** The dictionary built at instant `i` by visiting the stations in order
      and storing each present value under its rounded weight. */
  function Contributions(cols: seq<Column>, i: int): (r: seq<Entry>)
    requires PositiveDistances(cols) && HasInstant(cols, i)
    ensures UniqueKeys(r)
  {
    if |cols| == 0 then []
    else
      var n := |cols| - 1;
      var prev := Contributions(cols[..n], i);
      if cols[n].values[i].Some? then Put(prev, Weight(cols[n].distance), cols[n].values[i].value)
      else prev
  }

  /** Station `k` has a value at instant `i` and no later station with the
      same rounded weight has one: its value is the one the dictionary keeps. */
  predicate Survives(cols: seq<Column>, i: int, k: int)
    requires PositiveDistances(cols) && HasInstant(cols, i)
  {
    && 0 <= k < |cols|
    && cols[k].values[i].Some?
    && forall m :: k < m < |cols| && cols[m].values[i].Some? ==>
         Weight(cols[m].distance) != Weight(cols[k].distance)
  }

  /** Each dictionary entry is the weight and value of a surviving station. */
  lemma {:induction false} ContributionsSound(cols: seq<Column>, i: int, e: Entry)
    requires PositiveDistances(cols) && HasInstant(cols, i)
    requires e in Contributions(cols, i)
    ensures exists k :: Survives(cols, i, k) && Weight(cols[k].distance) == e.weight
                        && cols[k].values[i] == Some(e.value)
  {
    var n := |cols| - 1;
    var prefix := cols[..n];
    var prev := Contributions(prefix, i);
    var c := cols[n];
    if c.values[i].Some? && e == Entry(Weight(c.distance), c.values[i].value) {
      assert Survives(cols, i, n);
    } else {
      assert e in prev;
      assert c.values[i].Some? ==> e.weight != Weight(c.distance);
      ContributionsSound(prefix, i, e);
      var k :| Survives(prefix, i, k) && Weight(prefix[k].distance) == e.weight
               && prefix[k].values[i] == Some(e.value);
      assert prefix[k] == cols[k];
      forall m | k < m < |cols| && cols[m].values[i].Some?
        ensures Weight(cols[m].distance) != Weight(cols[k].distance)
      {
        if m < n {
          assert prefix[m] == cols[m];
        }
      }
      assert Survives(cols, i, k);
    }
  }

  /** Every station with a value at instant `i` has an entry under its weight. */
  lemma {:induction false} ContributionsComplete(cols: seq<Column>, i: int, k: int)
    requires PositiveDistances(cols) && HasInstant(cols, i)
    requires 0 <= k < |cols| && cols[k].values[i].Some?
    ensures exists e :: e in Contributions(cols, i) && e.weight == Weight(cols[k].distance)
  {
    var n := |cols| - 1;
    var prefix := cols[..n];
    var c := cols[n];
    if k == n {
      assert Entry(Weight(c.distance), c.values[i].value) in Contributions(cols, i);
    } else {
      assert prefix[k] == cols[k];
      ContributionsComplete(prefix, i, k);
      var e :| e in Contributions(prefix, i) && e.weight == Weight(cols[k].distance);
      if c.values[i].Some? && e.weight == Weight(c.distance) {
        assert Entry(Weight(c.distance), c.values[i].value) in Contributions(cols, i);
      } else {
        assert e in Contributions(cols, i);
      }
    }
  }

  /** A later station whose weight rounds like an earlier one's replaces it:
      the entry under that weight holds the later station's value. */
  lemma SameWeightLaterWins(cols: seq<Column>, i: int, k1: int, k2: int, e: Entry)
    requires PositiveDistances(cols) && HasInstant(cols, i)
    requires 0 <= k1 < k2 < |cols|
    requires cols[k1].values[i].Some? && Survives(cols, i, k2)
    requires Weight(cols[k1].distance) == Weight(cols[k2].distance)
    requires e in Contributions(cols, i) && e.weight == Weight(cols[k1].distance)
    ensures e.value == cols[k2].values[i].value
  {
    ContributionsSound(cols, i, e);
    var k :| Survives(cols, i, k) && Weight(cols[k].distance) == e.weight && cols[k].values[i] == Some(e.value);
    assert k == k2;
  }

  lemma ContributionsWeightsNonNegative(cols: seq<Column>, i: int)
    requires PositiveDistances(cols) && HasInstant(cols, i)
    ensures NonNegativeWeights(Contributions(cols, i))
  {
    var es := Contributions(cols, i);
    forall j | 0 <= j < |es| ensures es[j].weight >= 0.0 {
      ContributionsSound(cols, i, es[j]);
    }
  }

  /** The fused value at instant `i`: missing when no station has a value
      (or every weight rounds to 0), else the weighted mean of the entries. */
  function FuseAt(cols: seq<Column>, i: int): Option<real>
    requires PositiveDistances(cols) && HasInstant(cols, i)
  {
    var es := Contributions(cols, i);
    if |es| == 0 || Weights(es) == 0.0 then None
    else Some(WeightedSum(es) / Weights(es))
  }

  /** What the fusion needs: a well-formed dataset, and positive distances
      whenever the distances are used, that is, with other than one station. */
  predicate Fusable(ds: Dataset) {
    WellFormed(ds) && (|ds.columns| != 1 ==> PositiveDistances(ds.columns))
  }

  /** `weight_average_with_distance` as evidently intended: a single station
      passes through, several are fused instant by instant. */
  function Fuse(ds: Dataset): (r: seq<Option<real>>)
    requires Fusable(ds)
    ensures |r| == |ds.times|
  {
    if |ds.columns| == 1 then ds.columns[0].values
    else seq(|ds.times|, i requires 0 <= i < |ds.times| => FuseAt(ds.columns, i))
  }

  /** An instant where every station is missing stays missing. */
  lemma FuseNeverFabricates(ds: Dataset, i: int)
    requires Fusable(ds) && 0 <= i < |ds.times|
    requires forall k :: 0 <= k < |ds.columns| ==> ds.columns[k].values[i].None?
    ensures Fuse(ds)[i].None?
  {
    if |ds.columns| != 1 {
      var es := Contributions(ds.columns, i);
      if |es| > 0 {
        ContributionsSound(ds.columns, i, es[0]);
        assert false;
      }
    }
  }

  /** The dictionary's values are bounded by the values of two stations
      present at instant `i`. */
  lemma ContributionsBounded(cols: seq<Column>, i: int) returns (k1: int, k2: int)
    requires PositiveDistances(cols) && HasInstant(cols, i)
    requires |Contributions(cols, i)| > 0
    ensures 0 <= k1 < |cols| && 0 <= k2 < |cols|
    ensures cols[k1].values[i].Some? && cols[k2].values[i].Some?
    ensures ValuesWithin(Contributions(cols, i), cols[k1].values[i].value, cols[k2].values[i].value)
  {
    var es := Contributions(cols, i);
    var values := seq(|es|, j requires 0 <= j < |es| => es[j].value);
    var lo := Min(values);
    var hi := Max(values);
    assert forall j :: 0 <= j < |es| ==> values[j] == es[j].value;
    var j1 :| 0 <= j1 < |values| && values[j1] == lo;
    var j2 :| 0 <= j2 < |values| && values[j2] == hi;
    ContributionsSound(cols, i, es[j1]);
    ContributionsSound(cols, i, es[j2]);
    k1 :| Survives(cols, i, k1) && cols[k1].values[i] == Some(es[j1].value);
    k2 :| Survives(cols, i, k2) && cols[k2].values[i] == Some(es[j2].value);
  }

  /** A fused value lies between the smallest and the largest value present
      at that instant. */
  lemma FuseWithin(ds: Dataset, i: int)
    requires Fusable(ds) && 0 <= i < |ds.times|
    requires Fuse(ds)[i].Some?
    ensures exists k1, k2 ::
              && 0 <= k1 < |ds.columns| && 0 <= k2 < |ds.columns|
              && ds.columns[k1].values[i].Some? && ds.columns[k2].values[i].Some?
              && ds.columns[k1].values[i].value <= Fuse(ds)[i].value <= ds.columns[k2].values[i].value
  {
    var cols := ds.columns;
    var v := Fuse(ds)[i].value;
    if |cols| == 1 {
      assert cols[0].values[i].value <= v <= cols[0].values[i].value;
    } else {
      assert Fuse(ds)[i] == FuseAt(cols, i);
      var es := Contributions(cols, i);
      var k1, k2 := ContributionsBounded(cols, i);
      ContributionsWeightsNonNegative(cols, i);
      WeightsNonNegative(es);
      WeightedMeanWithin(es, cols[k1].values[i].value, cols[k2].values[i].value);
      assert cols[k1].values[i].value <= v <= cols[k2].values[i].value;
    }
  }

  /** Weights(es) is at least the weight of each entry, for non-negative weights. */
  lemma {:induction false} WeightsAtLeastEntry(es: seq<Entry>, j: int)
    requires NonNegativeWeights(es) && 0 <= j < |es|
    ensures Weights(es) >= es[j].weight
  {
    assert NonNegativeWeights(es[1..]) by {
      forall m | 0 <= m < |es[1..]| ensures es[1..][m].weight >= 0.0 {
        assert es[1..][m] == es[m + 1];
      }
    }
    if j == 0 {
      WeightsNonNegative(es[1..]);
    } else {
      WeightsAtLeastEntry(es[1..], j - 1);
    }
  }

  lemma {:induction false} WeightsNonNegative(es: seq<Entry>)
    requires NonNegativeWeights(es)
    ensures Weights(es) >= 0.0
  {
    if |es| > 0 {
      assert NonNegativeWeights(es[1..]) by {
        forall m | 0 <= m < |es[1..]| ensures es[1..][m].weight >= 0.0 {
          assert es[1..][m] == es[m + 1];
        }
      }
      WeightsNonNegative(es[1..]);
    }
  }

  /** With several stations, an instant where some station within 200 km
      (weight above 0) has a value gets a fused value. */
  lemma FusePresentWhenWeighted(ds: Dataset, i: int, k: int)
    requires Fusable(ds) && 0 <= i < |ds.times| && |ds.columns| != 1
    requires 0 <= k < |ds.columns| && ds.columns[k].values[i].Some?
    requires Weight(ds.columns[k].distance) > 0.0
    ensures Fuse(ds)[i].Some?
  {
    var es := Contributions(ds.columns, i);
    ContributionsComplete(ds.columns, i, k);
    var e :| e in es && e.weight == Weight(ds.columns[k].distance);
    var j :| 0 <= j < |es| && es[j] == e;
    ContributionsWeightsNonNegative(ds.columns, i);
    WeightsAtLeastEntry(es, j);
  }

  /** The dictionary after one station. */
  lemma ContributionsOfOne(c: Column, i: int)
    requires c.distance > 0.0 && 0 <= i < |c.values|
    ensures c.values[i].Some? ==> Contributions([c], i) == [Entry(Weight(c.distance), c.values[i].value)]
    ensures c.values[i].None? ==> Contributions([c], i) == []
  {
    assert [c][..0] == [];
  }

  /** The dictionary after two stations that both have a value. */
  lemma ContributionsOfTwo(c0: Column, c1: Column, i: int)
    requires c0.distance > 0.0 && c1.distance > 0.0
    requires 0 <= i < |c0.values| && 0 <= i < |c1.values|
    requires c0.values[i].Some? && c1.values[i].Some?
    ensures var w0, w1 := Weight(c0.distance), Weight(c1.distance);
            var v0, v1 := c0.values[i].value, c1.values[i].value;
            Contributions([c0, c1], i) == if w0 == w1 then [Entry(w1, v1)] else [Entry(w0, v0), Entry(w1, v1)]
  {
    var w0, w1 := Weight(c0.distance), Weight(c1.distance);
    var v0, v1 := c0.values[i].value, c1.values[i].value;
    assert [c0, c1][..1] == [c0];
    ContributionsOfOne(c0, i);
    assert Contributions([c0, c1], i) == Put([Entry(w0, v0)], w1, v1);
    assert [Entry(w0, v0)][1..] == [];
  }

  /** A single station's series is kept value for value, whatever its
      distance. */
  lemma SingleStationPassesThrough(ds: Dataset, i: int)
    requires Fusable(ds) && |ds.columns| == 1 && 0 <= i < |ds.times|
    ensures Fuse(ds)[i] == ds.columns[0].values[i]
    ensures FuseAsWritten(ds) == Ok(Fuse(ds))
  {
  }

  /** A single station exactly at the location, at distance 0, passes
      through both versions of the fusion unchanged. */
  lemma StationAtLocationPassesThrough()
    ensures var ds := Dataset([0, 3], [Column(7, 0.0, [Some(3.0), None])]);
            Fusable(ds) && Fuse(ds) == [Some(3.0), None] && FuseAsWritten(ds) == Ok([Some(3.0), None])
  {
  }

  /** When a single station's weight does not round to zero, the weighted
      branch would agree with the pass-through, since one weighted value
      averages to itself. */
  lemma SingleStationAgreesWithWeighting(ds: Dataset, i: int)
    requires Fusable(ds) && |ds.columns| == 1 && 0 <= i < |ds.times|
    requires ds.columns[0].distance > 0.0 && Weight(ds.columns[0].distance) > 0.0
    ensures FuseAt(ds.columns, i) == Fuse(ds)[i]
  {
    var c := ds.columns[0];
    assert ds.columns == [c];
    ContributionsOfOne(c, i);
    if c.values[i].Some? {
      var w, v := Weight(c.distance), c.values[i].value;
      WeightsOfOne(Entry(w, v));
      assert Contributions(ds.columns, i) == [Entry(w, v)];
      assert Weights([Entry(w, v)]) == w;
      assert WeightedSum([Entry(w, v)]) == w * v;
      CancelWeight(w, v);
      assert FuseAt(ds.columns, i) == Some(w * v / w);
    }
  }

  /** The fused value at an instant whose dictionary is known. */
  lemma FuseAtOf(cols: seq<Column>, i: int, es: seq<Entry>)
    requires PositiveDistances(cols) && HasInstant(cols, i)
    requires Contributions(cols, i) == es && |es| > 0 && Weights(es) != 0.0
    ensures FuseAt(cols, i) == Some(WeightedSum(es) / Weights(es))
  {
  }

  /** Two stations whose weights round alike (at the same distance, say) do
      not average: both values land under one weight and the later
      station's value is the fused value. */
  lemma EqualWeightsKeepLaterStation(ds: Dataset, i: int)
    requires Fusable(ds) && |ds.columns| == 2 && 0 <= i < |ds.times|
    requires Weight(ds.columns[0].distance) == Weight(ds.columns[1].distance)
    requires Weight(ds.columns[0].distance) > 0.0
    requires ds.columns[0].values[i].Some? && ds.columns[1].values[i].Some?
    ensures Fuse(ds)[i] == ds.columns[1].values[i]
  {
    var c0, c1 := ds.columns[0], ds.columns[1];
    assert ds.columns == [c0, c1];
    ContributionsOfTwo(c0, c1, i);
    var w, v := Weight(c1.distance), c1.values[i].value;
    var es := [Entry(w, v)];
    assert Contributions(ds.columns, i) == es;
    WeightsOfOne(Entry(w, v));
    assert Weights(es) == w && WeightedSum(es) == w * v;
    assert w > 0.0;
    FuseAtOf(ds.columns, i, es);
    assert FuseAt(ds.columns, i) == Some(w * v / w);
    CancelWeight(w, v);
    assert FuseAt(ds.columns, i) == Some(v);
    assert Fuse(ds)[i] == FuseAt(ds.columns, i);
  }

  /** Stations 45 km and 46 km away both get weight 0.02, so at an instant
      where they report 1 and 4 the fused value is 4, the later station's,
      where the unrounded weights would give about 2.48. */
  lemma NearbyStationsShareWeight()
    ensures Weight(45.0) == 0.02 && Weight(46.0) == 0.02
    ensures var ds := Dataset([0], [Column(1, 45.0, [Some(1.0)]), Column(2, 46.0, [Some(4.0)])]);
            Fusable(ds) && Fuse(ds) == [Some(4.0)]
  {
    assert Weight(45.0) == 0.02 by {
      assert 1.0 / 45.0 * 100.0 == 20.0 / 9.0;
      assert (20.0 / 9.0).Floor == 2;
    }
    assert Weight(46.0) == 0.02 by {
      assert 1.0 / 46.0 * 100.0 == 50.0 / 23.0;
      assert (50.0 / 23.0).Floor == 2;
    }
    var ds := Dataset([0], [Column(1, 45.0, [Some(1.0)]), Column(2, 46.0, [Some(4.0)])]);
    EqualWeightsKeepLaterStation(ds, 0);
  }

  lemma FuseAtTwo(c0: Column, c1: Column, i: int)
    requires c0.distance > 0.0 && c1.distance > 0.0
    requires 0 <= i < |c0.values| && 0 <= i < |c1.values|
    requires c0.values[i].Some? && c1.values[i].Some?
    requires Weight(c0.distance) != Weight(c1.distance)
    requires Weight(c0.distance) + Weight(c1.distance) > 0.0
    ensures FuseAt([c0, c1], i) == Some(WeightedMeanOfTwo(Weight(c0.distance), c0.values[i].value,
                                                          Weight(c1.distance), c1.values[i].value))
  {
    var w0, w1 := Weight(c0.distance), Weight(c1.distance);
    var v0, v1 := c0.values[i].value, c1.values[i].value;
    var es := [Entry(w0, v0), Entry(w1, v1)];
    assert Contributions([c0, c1], i) == es by {
      ContributionsOfTwo(c0, c1, i);
    }
    WeightedMeanOfTwoEntries(Entry(w0, v0), Entry(w1, v1));
    FuseAtOf([c0, c1], i, es);
  }

  /** Two stations whose weights differ after rounding are averaged with
      those weights, normalised by their sum. */
  lemma DistinctWeightsAverage(ds: Dataset, i: int)
    requires Fusable(ds) && |ds.columns| == 2 && 0 <= i < |ds.times|
    requires Weight(ds.columns[0].distance) != Weight(ds.columns[1].distance)
    requires Weight(ds.columns[0].distance) + Weight(ds.columns[1].distance) > 0.0
    requires ds.columns[0].values[i].Some? && ds.columns[1].values[i].Some?
    ensures Fuse(ds)[i] == Some(WeightedMeanOfTwo(Weight(ds.columns[0].distance), ds.columns[0].values[i].value,
                                                  Weight(ds.columns[1].distance), ds.columns[1].values[i].value))
  {
    var c0, c1 := ds.columns[0], ds.columns[1];
    assert ds.columns == [c0, c1];
    FuseAtTwo(c0, c1, i);
    assert Fuse(ds)[i] == FuseAt(ds.columns, i);
  }

  /** `weight_average_with_distance` as written. For several stations the
      weight array is `np.array(dict.keys())`, a 0-d object array, and
      dividing it by the weight total raises a TypeError at the first instant
      with any present value. Should every instant be missing, the loop ends,
      but `ds.mean('station_id')` has already removed the coordinates that
      run along the station dimension (`x`, `y`, `distance`), so dropping
      them by name raises instead. Only a single station gets through. */
  function FuseAsWritten(ds: Dataset): (r: Result<seq<Option<real>>>)
    requires Fusable(ds)
    ensures r.Ok? <==> |ds.columns| == 1
    ensures r.Ok? ==> r.value == Fuse(ds)
    ensures r.Err? ==> r.error == WeightArrayTypeError || r.error == StationCoordinatesDropped
  {
    if |ds.columns| == 1 then Ok(ds.columns[0].values)
    else if exists i :: 0 <= i < |ds.times| && |Contributions(ds.columns, i)| > 0 then
      Err(WeightArrayTypeError)
    else Err(StationCoordinatesDropped)
  }

  /** As written, a present value among several stations makes the division
      raise before anything else. */
  lemma AsWrittenNeverFusesSeveralStations(ds: Dataset, i: int, k: int)
    requires Fusable(ds) && |ds.columns| != 1
    requires 0 <= i < |ds.times| && 0 <= k < |ds.columns| && ds.columns[k].values[i].Some?
    ensures FuseAsWritten(ds) == Err(WeightArrayTypeError)
  {
    ContributionsComplete(ds.columns, i, k);
    var e :| e in Contributions(ds.columns, i) && e.weight == Weight(ds.columns[k].distance);
  }

  /** As written, several stations with no value at all get past the loop
      and fail on dropping the coordinates. */
  lemma AsWrittenAllMissingFailsOnDrop(ds: Dataset)
    requires Fusable(ds) && |ds.columns| != 1
    requires forall i, k :: 0 <= i < |ds.times| && 0 <= k < |ds.columns| ==> ds.columns[k].values[i].None?
    ensures FuseAsWritten(ds) == Err(StationCoordinatesDropped)
  {
    forall i | 0 <= i < |ds.times| ensures |Contributions(ds.columns, i)| == 0 {
      var es := Contributions(ds.columns, i);
      if |es| > 0 {
        ContributionsSound(ds.columns, i, es[0]);
        assert false;
      }
    }
  }

  /** Two stations at 10 km and 20 km with values 1 and 4 at one instant:
      the source raises, while the intended weighted mean is
      (0.1 * 1 + 0.05 * 4) / 0.15 = 2. */
  lemma WeightArrayWitness()
    ensures var ds := Dataset([0], [Column(1, 10.0, [Some(1.0)]), Column(2, 20.0, [Some(4.0)])]);
            Fusable(ds) && FuseAsWritten(ds).Err? && Fuse(ds) == [Some(2.0)]
  {
    var ds := Dataset([0], [Column(1, 10.0, [Some(1.0)]), Column(2, 20.0, [Some(4.0)])]);
    assert Weight(10.0) == 0.1 by {
      assert 1.0 / 10.0 * 100.0 == 10.0;
      RoundWholeNumber(10);
    }
    assert Weight(20.0) == 0.05 by {
      assert 1.0 / 20.0 * 100.0 == 5.0;
      RoundWholeNumber(5);
    }
    DistinctWeightsAverage(ds, 0);
    assert WeightedMeanOfTwo(0.1, 1.0, 0.05, 4.0) == 2.0;
    assert Fuse(ds)[0] == Some(2.0);
    AsWrittenNeverFusesSeveralStations(ds, 0, 0);
  }
}

=== FILE: location.dfy ===
/** The location of interest (`Location` of `src/data/utils.py`). The
    source mutates `distance` once a station is matched; here a match returns
    the new distance as a separate value instead. */
module Locations {

  datatype Location = Location(
    locationId: string,
    city: string,
    country: string,
    latitude: real,
    longitude: real,
    distance: real)

  /** A location as the dataclass builds it when `distance` is not given. */
  function NewLocation(locationId: string, city: string, country: string,
                       latitude: real, longitude: real): (l: Location)
    ensures l.distance == 0.0
    ensures l.locationId == locationId && l.city == city && l.country == country
    ensures l.latitude == latitude && l.longitude == longitude
  {
    Location(locationId, city, country, latitude, longitude, 0.0)
  }
}

=== FILE: merge.dfy ===
/** `DataLoader.run` of `src/models/load_data.py`: the observations are
    converted, resampled to 3-hour buckets and fused into one ground-truth
    series, merged with the forecast on time, every row with a missing field
    is dropped, and the bias `forecast - observed` is added. The forecast
    rows are given already in micrograms per cubic metre; `others` are the
    remaining forecast fields of the row, which the drop also inspects. */
module Merging {
  import opened Common
  import opened Numeric
  import opened Observations
  import opened Fusion

  /** One forecast time step: the variable's forecast and the other fields. */
  datatype ForecastRow = ForecastRow(time: int, forecast: Option<real>, others: seq<Option<real>>)

  /** A row of the merged table before the drop. */
  datatype MergedRow = MergedRow(time: int, forecast: Option<real>, others: seq<Option<real>>,
                                 observed: Option<real>)

  /** A row of the result: every field present, and the bias. */
  datatype BiasRow = BiasRow(time: int, forecast: real, others: seq<real>, observed: real, bias: real)

  /** A ground-truth series: one fused value per time step. */
  datatype Series = Series(times: seq<int>, values: seq<Option<real>>)

  predicate Aligned(s: Series) {
    |s.times| == |s.values|
  }

  /** `opening_and_transforming_observations` on an opened dataset: unit
      conversion, then resampling, then fusion; resampling comes first. */
  function GroundTruth(variable: string, ds: Dataset): (r: Series)
    requires Fusable(ds)
    ensures Aligned(r)
    ensures r.times == BucketStarts(ds.times)
  {
    var converted := ConvertUnits(variable, ds);
    var resampled := Resample(converted);
    assert Fusable(resampled) by {
      if |resampled.columns| != 1 {
        forall k | 0 <= k < |resampled.columns| ensures resampled.columns[k].distance > 0.0 {
          assert converted.columns[k].distance == ds.columns[k].distance;
        }
      }
    }
    Series(resampled.times, Fuse(resampled))
  }

  /** The observed value at time `t`: the value at the first time step equal
      to `t`, missing when the series has no such step. */
  function Lookup(s: Series, t: int): (r: Option<real>)
    requires Aligned(s)
    decreases |s.times|
    ensures r.Some? ==> exists j :: 0 <= j < |s.times| && s.times[j] == t && s.values[j] == r
    ensures (forall j :: 0 <= j < |s.times| ==> s.times[j] != t) ==> r.None?
    ensures forall j :: 0 <= j < |s.times| && s.times[j] == t && FirstAt(s.times, t, j) ==> r == s.values[j]
  {
    if |s.times| == 0 then None
    else if s.times[0] == t then s.values[0]
    else
      var tail := Series(s.times[1..], s.values[1..]);
      var rest := Lookup(tail, t);
      assert forall j :: 1 <= j < |s.times| ==> s.times[j] == tail.times[j - 1] && s.values[j] == tail.values[j - 1];
      assert forall j :: 1 <= j < |s.times| && FirstAt(s.times, t, j) ==> FirstAt(tail.times, t, j - 1);
      rest
  }

  /** No step before `j` has time `t`. */
  predicate FirstAt(times: seq<int>, t: int, j: int) {
    forall m :: 0 <= m < j && m < |times| ==> times[m] != t
  }

  /** `xr.merge` on time: each forecast step with the observation of its time. */
  function Join(forecast: seq<ForecastRow>, truth: Series): (r: seq<MergedRow>)
    requires Aligned(truth)
    ensures |r| == |forecast|
    ensures forall k :: 0 <= k < |forecast| ==>
              r[k] == MergedRow(forecast[k].time, forecast[k].forecast, forecast[k].others,
                                Lookup(truth, forecast[k].time))
  {
    seq(|forecast|, k requires 0 <= k < |forecast| =>
      MergedRow(forecast[k].time, forecast[k].forecast, forecast[k].others, Lookup(truth, forecast[k].time)))
  }

  /** A merged row with no missing field survives `dropna`. */
  predicate Complete(m: MergedRow) {
    && m.forecast.Some?
    && m.observed.Some?
    && forall j :: 0 <= j < |m.others| ==> m.others[j].Some?
  }

  /** The complete row with the bias column added. */
  function WithBias(m: MergedRow): (b: BiasRow)
    requires Complete(m)
    ensures b.time == m.time && |b.others| == |m.others|
    ensures Some(b.forecast) == m.forecast && Some(b.observed) == m.observed
    ensures forall j :: 0 <= j < |m.others| ==> m.others[j] == Some(b.others[j])
    ensures b.observed + b.bias == b.forecast
  {
    var others := seq(|m.others|, j requires 0 <= j < |m.others| => m.others[j].value);
    BiasRow(m.time, m.forecast.value, others, m.observed.value, m.forecast.value - m.observed.value)
  }

  /** `dropna` followed by the bias column, row by row in merged order. */
  function DropAndBias(rows: seq<MergedRow>): (r: seq<BiasRow>)
    ensures |r| == |Filter(rows, Complete)|
    ensures forall k :: 0 <= k < |r| ==>
              Complete(Filter(rows, Complete)[k]) && r[k] == WithBias(Filter(rows, Complete)[k])
  {
    var kept := Filter(rows, Complete);
    seq(|kept|, k requires 0 <= k < |kept| => WithBias(kept[k]))
  }

  /** `DataLoader.run` with the intended fusion. Observations that cannot be
      opened (`None`) raise, which the source reports as missing ground truth. */
  function Run(variable: string, forecast: seq<ForecastRow>, observations: Option<Dataset>): (r: Result<seq<BiasRow>>)
    requires observations.Some? ==> Fusable(observations.value)
    ensures r.Err? <==> observations.None?
    ensures r.Err? ==> r.error == NoGroundTruth
    ensures r.Ok? ==> |r.value| <= |forecast|
    ensures r.Ok? ==> forall k :: 0 <= k < |r.value| ==> r.value[k].observed + r.value[k].bias == r.value[k].forecast
  {
    match observations
    case None => Err(NoGroundTruth)
    case Some(ds) => Ok(DropAndBias(Join(forecast, GroundTruth(variable, ds))))
  }

  /** Every result row comes from a forecast step with that time, that
      forecast and those other fields, carries the observation of its time
      and has no missing field. */
  lemma RunSound(variable: string, forecast: seq<ForecastRow>, ds: Dataset, k: int)
    requires Fusable(ds)
    requires 0 <= k < |Run(variable, forecast, Some(ds)).value|
    ensures var row := Run(variable, forecast, Some(ds)).value[k];
            && (exists n :: 0 <= n < |forecast| && FromForecastRow(forecast[n], row))
            && Lookup(GroundTruth(variable, ds), row.time) == Some(row.observed)
            && row.bias == row.forecast - row.observed
  {
    var truth := GroundTruth(variable, ds);
    var merged := Join(forecast, truth);
    var kept := Filter(merged, Complete);
    var row := Run(variable, forecast, Some(ds)).value[k];
    var m := kept[k];
    assert row == WithBias(m);
    assert m in kept;
    var n :| 0 <= n < |merged| && merged[n] == m;
    assert FromForecastRow(forecast[n], row);
  }

  /** The bias row's time, forecast and other fields are those of the
      forecast step. */
  predicate FromForecastRow(f: ForecastRow, row: BiasRow) {
    && f.time == row.time
    && f.forecast == Some(row.forecast)
    && |f.others| == |row.others|
    && forall j :: 0 <= j < |row.others| ==> f.others[j] == Some(row.others[j])
  }

  /** Every forecast step with no missing field whose time has an observation
      appears in the result. */
  lemma RunComplete(variable: string, forecast: seq<ForecastRow>, ds: Dataset, n: int)
    requires Fusable(ds)
    requires 0 <= n < |forecast|
    requires forecast[n].forecast.Some? && forall j :: 0 <= j < |forecast[n].others| ==> forecast[n].others[j].Some?
    requires Lookup(GroundTruth(variable, ds), forecast[n].time).Some?
    ensures exists k :: 0 <= k < |Run(variable, forecast, Some(ds)).value|
                        && Run(variable, forecast, Some(ds)).value[k].time == forecast[n].time
                        && Some(Run(variable, forecast, Some(ds)).value[k].forecast) == forecast[n].forecast
  {
    var truth := GroundTruth(variable, ds);
    var merged := Join(forecast, truth);
    var kept := Filter(merged, Complete);
    assert Complete(merged[n]);
    assert merged[n] in kept;
    var k :| 0 <= k < |kept| && kept[k] == merged[n];
    assert Run(variable, forecast, Some(ds)).value[k] == WithBias(kept[k]);
  }

  predicate IncreasingTimes(rows: seq<MergedRow>) {
    forall i, j :: 0 <= i < j < |rows| ==> rows[i].time < rows[j].time
  }

  lemma PrependIncreasing(x: MergedRow, rest: seq<MergedRow>)
    requires IncreasingTimes(rest)
    requires forall j :: 0 <= j < |rest| ==> x.time < rest[j].time
    ensures IncreasingTimes([x] + rest)
  {
    var r := [x] + rest;
    forall i, j | 0 <= i < j < |r| ensures r[i].time < r[j].time {
      if i == 0 {
        assert r[j] == rest[j - 1];
      } else {
        assert r[i] == rest[i - 1] && r[j] == rest[j - 1];
      }
    }
  }

  /** The first row comes before every kept row of the rest. */
  lemma HeadBeforeKeptTail(rows: seq<MergedRow>)
    requires |rows| > 0 && IncreasingTimes(rows)
    ensures forall j :: 0 <= j < |Filter(rows[1..], Complete)| ==> rows[0].time < Filter(rows[1..], Complete)[j].time
  {
    var tail := rows[1..];
    var rest := Filter(tail, Complete);
    forall j | 0 <= j < |rest| ensures rows[0].time < rest[j].time {
      assert rest[j] in tail;
      var m :| 0 <= m < |tail| && tail[m] == rest[j];
      assert rows[m + 1] == rest[j];
    }
  }

  lemma {:induction false} DropKeepsIncreasingTimes(rows: seq<MergedRow>)
    requires IncreasingTimes(rows)
    ensures IncreasingTimes(Filter(rows, Complete))
  {
    if |rows| > 0 {
      var tail := rows[1..];
      var rest := Filter(tail, Complete);
      assert IncreasingTimes(tail) by {
        forall i, j | 0 <= i < j < |tail| ensures tail[i].time < tail[j].time {
          assert tail[i] == rows[i + 1] && tail[j] == rows[j + 1];
        }
      }
      DropKeepsIncreasingTimes(tail);
      HeadBeforeKeptTail(rows);
      if Complete(rows[0]) {
        PrependIncreasing(rows[0], rest);
      }
    }
  }

  /** The result keeps the time order of a forecast whose steps increase. */
  lemma RunKeepsTimeOrder(variable: string, forecast: seq<ForecastRow>, ds: Dataset)
    requires Fusable(ds)
    requires forall i, j :: 0 <= i < j < |forecast| ==> forecast[i].time < forecast[j].time
    ensures var r := Run(variable, forecast, Some(ds)).value;
            forall i, j :: 0 <= i < j < |r| ==> r[i].time < r[j].time
  {
    var merged := Join(forecast, GroundTruth(variable, ds));
    assert IncreasingTimes(merged);
    DropKeepsIncreasingTimes(merged);
  }

  /** `run` with the fusion as written: for several stations the fusion
      raises, and the bare `except` reports missing ground truth. */
  function RunAsWritten(variable: string, forecast: seq<ForecastRow>, observations: Option<Dataset>): (r: Result<seq<BiasRow>>)
    requires observations.Some? ==> Fusable(observations.value)
    ensures observations.None? ==> r == Err(NoGroundTruth)
    ensures r.Err? ==> r.error == NoGroundTruth
    ensures observations.Some? && |observations.value.columns| == 1 ==> r == Run(variable, forecast, observations)
    ensures observations.Some? && |observations.value.columns| != 1 ==> r == Err(NoGroundTruth)
  {
    match observations
    case None => Err(NoGroundTruth)
    case Some(ds) =>
      var resampled := Resample(ConvertUnits(variable, ds));
      assert Fusable(resampled) by {
        if |resampled.columns| != 1 {
          forall k | 0 <= k < |resampled.columns| ensures resampled.columns[k].distance > 0.0 {
            assert ConvertUnits(variable, ds).columns[k].distance == ds.columns[k].distance;
          }
        }
      }
      match FuseAsWritten(resampled)
      case Err(_) => Err(NoGroundTruth)
      case Ok(values) => Ok(DropAndBias(Join(forecast, Series(resampled.times, values))))
  }

  /** As written, two or more stations make `run` fail whatever their data,
      where the intended fusion yields a table. */
  lemma RunAsWrittenFailsForSeveralStations(variable: string, forecast: seq<ForecastRow>, ds: Dataset)
    requires Fusable(ds) && |ds.columns| >= 2
    ensures RunAsWritten(variable, forecast, Some(ds)) == Err(NoGroundTruth)
    ensures Run(variable, forecast, Some(ds)).Ok?
  {
  }

  /** The specific gas constant of dry air, J/(kg·K). */
  const DryAirGasConstant: real := 287.058

  /** `calculate_air_density`: the ideal-gas density `sp / (t · R)` from the
      surface pressure (Pa) and the 2 m temperature (K). */
  function AirDensity(surfacePressure: real, temperature: real): (rho: real)
    requires temperature > 0.0
    ensures rho * (temperature * DryAirGasConstant) == surfacePressure
    ensures surfacePressure > 0.0 ==> rho > 0.0
  {
    surfacePressure / (temperature * DryAirGasConstant)
  }

  /** Density scales with pressure: doubling the pressure doubles it. */
  lemma AirDensityLinearInPressure(sp: real, t: real)
    requires t > 0.0
    ensures AirDensity(2.0 * sp, t) == 2.0 * AirDensity(sp, t)
  {
    var rho := AirDensity(sp, t);
    var rho2 := AirDensity(2.0 * sp, t);
    assert (rho2 - 2.0 * rho) * (t * DryAirGasConstant) == 0.0;
  }
}

=== FILE: numeric.dfy ===
/** Real-number helpers shared by the resampler and the fuser: sums, the
    arithmetic mean, the weighted mean, and rounding to two decimals as
    numpy does it (round half to even). */
module Numeric {

  function Sum(xs: seq<real>): real {
    if |xs| == 0 then 0.0 else xs[0] + Sum(xs[1..])
  }

  function Mean(xs: seq<real>): real
    requires |xs| > 0
  {
    Sum(xs) / (|xs| as real)
  }

  /** Every element of `xs` lies in [lo, hi]. */
  predicate Within(xs: seq<real>, lo: real, hi: real) {
    forall i :: 0 <= i < |xs| ==> lo <= xs[i] <= hi
  }

  /** The smallest element, an element of `xs` bounding all the others. */
  function Min(xs: seq<real>): (m: real)
    requires |xs| > 0
    ensures m in xs
    ensures forall i :: 0 <= i < |xs| ==> m <= xs[i]
  {
    if |xs| == 1 then xs[0]
    else
      var rest := Min(xs[1..]);
      if xs[0] <= rest then xs[0] else rest
  }

  /** The largest element, an element of `xs` bounding all the others. */
  function Max(xs: seq<real>): (m: real)
    requires |xs| > 0
    ensures m in xs
    ensures forall i :: 0 <= i < |xs| ==> xs[i] <= m
  {
    if |xs| == 1 then xs[0]
    else
      var rest := Max(xs[1..]);
      if xs[0] >= rest then xs[0] else rest
  }

  lemma {:induction false} SumBounds(xs: seq<real>, lo: real, hi: real)
    requires Within(xs, lo, hi)
    ensures (|xs| as real) * lo <= Sum(xs) <= (|xs| as real) * hi
  {
    if |xs| > 0 {
      assert Within(xs[1..], lo, hi) by {
        forall i | 0 <= i < |xs[1..]| ensures lo <= xs[1..][i] <= hi {
          assert xs[1..][i] == xs[i + 1];
        }
      }
      SumBounds(xs[1..], lo, hi);
    }
  }

  /** The mean of values lying in [lo, hi] lies in [lo, hi]. */
  lemma MeanWithin(xs: seq<real>, lo: real, hi: real)
    requires |xs| > 0 && Within(xs, lo, hi)
    ensures lo <= Mean(xs) <= hi
  {
    SumBounds(xs, lo, hi);
    DivideWithin(Sum(xs), |xs| as real, lo, hi);
  }

  /** The mean lies between the smallest and the largest element. */
  lemma MeanBetweenMinAndMax(xs: seq<real>)
    requires |xs| > 0
    ensures Min(xs) <= Mean(xs) <= Max(xs)
  {
    MeanWithin(xs, Min(xs), Max(xs));
  }

  /** One (weight, value) pair of a weighted average. */
  datatype Entry = Entry(weight: real, value: real)

  function Weights(es: seq<Entry>): (r: real) {
    if |es| == 0 then 0.0 else es[0].weight + Weights(es[1..])
  }

  function WeightedSum(es: seq<Entry>): real {
    if |es| == 0 then 0.0 else es[0].weight * es[0].value + WeightedSum(es[1..])
  }

  lemma WeightsOfOne(e: Entry)
    ensures Weights([e]) == e.weight
    ensures WeightedSum([e]) == e.weight * e.value
  {
    assert [e][1..] == [];
  }

  lemma WeightsOfTwo(e0: Entry, e1: Entry)
    ensures Weights([e0, e1]) == e0.weight + e1.weight
    ensures WeightedSum([e0, e1]) == e0.weight * e0.value + e1.weight * e1.value
  {
    assert [e0, e1][1..] == [e1];
    WeightsOfOne(e1);
  }

  /** The weighted mean of two values. */
  function WeightedMeanOfTwo(w0: real, v0: real, w1: real, v1: real): real
    requires w0 + w1 != 0.0
  {
    (w0 * v0 + w1 * v1) / (w0 + w1)
  }

  /** Normalising two entries gives the weighted mean of their values. */
  lemma WeightedMeanOfTwoEntries(e0: Entry, e1: Entry)
    requires e0.weight + e1.weight != 0.0
    ensures Weights([e0, e1]) != 0.0
    ensures WeightedSum([e0, e1]) / Weights([e0, e1]) == WeightedMeanOfTwo(e0.weight, e0.value, e1.weight, e1.value)
  {
    WeightsOfTwo(e0, e1);
  }

  predicate NonNegativeWeights(es: seq<Entry>) {
    forall i :: 0 <= i < |es| ==> es[i].weight >= 0.0
  }

  predicate ValuesWithin(es: seq<Entry>, lo: real, hi: real) {
    forall i :: 0 <= i < |es| ==> lo <= es[i].value <= hi
  }

  lemma {:induction false} WeightedSumBounds(es: seq<Entry>, lo: real, hi: real)
    requires NonNegativeWeights(es) && ValuesWithin(es, lo, hi)
    ensures lo * Weights(es) <= WeightedSum(es) <= hi * Weights(es)
  {
    if |es| > 0 {
      var e := es[0];
      var tail := es[1..];
      assert NonNegativeWeights(tail) && ValuesWithin(tail, lo, hi) by {
        forall i | 0 <= i < |tail| ensures tail[i] == es[i + 1] { }
      }
      var w, v := e.weight, e.value;
      var r, s := Weights(tail), WeightedSum(tail);
      assert w >= 0.0 && lo <= v <= hi by {
        assert e == es[0];
      }
      assert lo * r <= s <= hi * r by {
        WeightedSumBounds(tail, lo, hi);
      }
      assert Weights(es) == w + r && WeightedSum(es) == w * v + s;
      StepBounds(w, v, r, s, lo, hi);
    }
  }

  /** One entry added to bounded weighted sums keeps them bounded. */
  lemma StepBounds(w: real, v: real, r: real, s: real, lo: real, hi: real)
    requires w >= 0.0 && lo <= v <= hi && lo * r <= s <= hi * r
    ensures lo * (w + r) <= w * v + s <= hi * (w + r)
  {
    assert w * lo <= w * v <= w * hi by {
      MultiplyMonotone(w, lo, v);
      MultiplyMonotone(w, v, hi);
    }
    Distribute(lo, w, r);
    Distribute(hi, w, r);
    AddBounds(w * lo, w * v, w * hi, lo * r, s, hi * r);
  }

  lemma AddBounds(a0: real, a1: real, a2: real, b0: real, b1: real, b2: real)
    requires a0 <= a1 <= a2 && b0 <= b1 <= b2
    ensures a0 + b0 <= a1 + b1 <= a2 + b2
  {
  }

  lemma Distribute(x: real, a: real, b: real)
    ensures x * (a + b) == a * x + x * b
  {
  }

  lemma CancelWeight(w: real, v: real)
    requires w != 0.0
    ensures w * v / w == v
  {
    var q := w * v / w;
    assert q * w == w * v;
    assert (q - v) * w == 0.0;
  }

  lemma MultiplyMonotone(w: real, a: real, b: real)
    requires w >= 0.0 && a <= b
    ensures w * a <= w * b
  {
    assert w * b - w * a == w * (b - a);
  }

  /** Normalising non-negative weights by their positive total yields a value
      between the bounds of the values averaged. */
  lemma WeightedMeanWithin(es: seq<Entry>, lo: real, hi: real)
    requires NonNegativeWeights(es) && ValuesWithin(es, lo, hi)
    requires Weights(es) > 0.0
    ensures lo <= WeightedSum(es) / Weights(es) <= hi
  {
    WeightedSumBounds(es, lo, hi);
    DivideWithin(WeightedSum(es), Weights(es), lo, hi);
  }

  lemma DivideWithin(a: real, w: real, lo: real, hi: real)
    requires w > 0.0 && lo * w <= a <= hi * w
    ensures lo <= a / w <= hi
  {
    var q := a / w;
    assert a == q * w;
    if q < lo {
      MultiplyMonotone(w, q, lo);
      assert false;
    }
    if q > hi {
      MultiplyMonotone(w, hi, q);
      assert false;
    }
  }

  /** Round half to even to an integer, the rounding numpy applies. */
  function RoundHalfEven(x: real): (n: int)
    ensures x - 0.5 <= n as real <= x + 0.5
    ensures x - (x.Floor as real) == 0.5 ==> n % 2 == 0
  {
    var f := x.Floor;
    var fraction := x - f as real;
    if fraction < 0.5 then f
    else if fraction > 0.5 then f + 1
    else if f % 2 == 0 then f else f + 1
  }

  /** A whole number is its own rounding. */
  lemma RoundWholeNumber(n: int)
    ensures RoundHalfEven(n as real) == n
  {
  }

  /** `round(x, 2)`: the nearest multiple of 0.01, ties to even hundredths. */
  function Round2(x: real): (r: real)
    ensures -0.005 <= r - x <= 0.005
    ensures x >= 0.0 ==> r >= 0.0
    ensures r * 100.0 == (r * 100.0).Floor as real
    ensures x * 100.0 - ((x * 100.0).Floor as real) == 0.5 ==> (r * 100.0).Floor % 2 == 0
  {
    var n := RoundHalfEven(x * 100.0);
    assert (n as real / 100.0) * 100.0 == n as real;
    assert (n as real).Floor == n;
    n as real / 100.0
  }

  /** Rounding two decimals is idempotent: a rounded value is its own rounding. */
  lemma Round2Idempotent(x: real)
    ensures Round2(Round2(x)) == Round2(x)
  {
    var n := RoundHalfEven(x * 100.0);
    assert Round2(x) * 100.0 == n as real;
    RoundWholeNumber(n);
  }
}

=== FILE: observations.dfy ===
/** The observation side of `DataLoader.opening_and_transforming_observations`
    (`src/models/load_data.py`): the stacked per-station observations, the
    ozone unit conversion and the resampling to 3-hour buckets. A missing
    value (NaN in the source) is `None`. */
module Observations {
  import opened Common
  import opened Numeric

  /** One station's series, aligned with the dataset's time axis. */
  datatype Column = Column(stationId: int, distance: real, values: seq<Option<real>>)

  /** Observations of one variable: a time axis (whole hours since
      1970-01-01 UTC) and one column per station. */
  datatype Dataset = Dataset(times: seq<int>, columns: seq<Column>)

  predicate WellFormed(ds: Dataset) {
    forall k :: 0 <= k < |ds.columns| ==> |ds.columns[k].values| == |ds.times|
  }

  const Ozone: string := "o3"

  /** ppm to milligrams per kilogram. */
  const PpmScale: real := 1000.0

  /** The fixed reference air density (kg/m³) used for ozone observations. */
  const ReferenceAirDensity: real := 0.816

  /** Ozone values are scaled by 10³ and divided by the air density; other
      variables, and missing values, pass through. */
  function ConvertColumn(variable: string, c: Column): (r: Column)
    ensures r.stationId == c.stationId && r.distance == c.distance
    ensures |r.values| == |c.values|
    ensures variable != Ozone ==> r == c
    ensures forall i :: 0 <= i < |c.values| ==> (r.values[i].Some? <==> c.values[i].Some?)
    ensures variable == Ozone ==>
              forall i :: 0 <= i < |c.values| && c.values[i].Some? ==>
                r.values[i].value * ReferenceAirDensity == c.values[i].value * PpmScale
  {
    if variable != Ozone then c
    else
      Column(c.stationId, c.distance,
             seq(|c.values|, i requires 0 <= i < |c.values| =>
               if c.values[i].None? then None
               else Some(c.values[i].value * PpmScale / ReferenceAirDensity)))
  }

  function ConvertUnits(variable: string, ds: Dataset): (r: Dataset)
    requires WellFormed(ds)
    ensures WellFormed(r)
    ensures r.times == ds.times && |r.columns| == |ds.columns|
    ensures forall k :: 0 <= k < |ds.columns| ==> r.columns[k] == ConvertColumn(variable, ds.columns[k])
  {
    Dataset(ds.times, seq(|ds.columns|, k requires 0 <= k < |ds.columns| => ConvertColumn(variable, ds.columns[k])))
  }

  /** Ozone conversion can be undone: dividing by 10³ and multiplying by the
      air density recovers every observed value. */
  lemma ConvertOzoneRoundTrip(c: Column, i: int)
    requires 0 <= i < |c.values| && c.values[i].Some?
    ensures ConvertColumn(Ozone, c).values[i].value * ReferenceAirDensity / PpmScale == c.values[i].value
  {
  }

  const BucketHours: int := 3

  /** Start of the 3-hour bucket holding `t`; buckets are aligned to midnight. */
  function Bucket(t: int): (b: int)
    ensures b <= t < b + BucketHours
    ensures b % BucketHours == 0
  {
    (t / BucketHours) * BucketHours
  }

  function MinTime(ts: seq<int>): (m: int)
    requires |ts| > 0
    ensures m in ts && forall i :: 0 <= i < |ts| ==> m <= ts[i]
  {
    if |ts| == 1 then ts[0]
    else var rest := MinTime(ts[1..]); if ts[0] <= rest then ts[0] else rest
  }

  function MaxTime(ts: seq<int>): (m: int)
    requires |ts| > 0
    ensures m in ts && forall i :: 0 <= i < |ts| ==> ts[i] <= m
  {
    if |ts| == 1 then ts[0]
    else var rest := MaxTime(ts[1..]); if ts[0] >= rest then ts[0] else rest
  }

  /** The resampled time axis: every bucket from the earliest observation's
      to the latest's, empty buckets included. */
  function BucketStarts(times: seq<int>): (r: seq<int>)
    ensures |times| == 0 ==> r == []
    ensures |times| > 0 ==> |r| > 0 && r[0] == Bucket(MinTime(times)) && r[|r| - 1] == Bucket(MaxTime(times))
    ensures forall k :: 0 <= k < |r| ==> r[k] % BucketHours == 0
    ensures forall k :: 0 < k < |r| ==> r[k] == r[k - 1] + BucketHours
  {
    if |times| == 0 then []
    else
      var lo := Bucket(MinTime(times));
      var hi := Bucket(MaxTime(times));
      assert lo <= hi && (hi - lo) % BucketHours == 0;
      seq((hi - lo) / BucketHours + 1, k => lo + BucketHours * k)
  }

  /** Every observation instant falls in exactly one bucket of the new axis. */
  lemma EveryTimeHasItsBucket(times: seq<int>, i: int)
    requires 0 <= i < |times|
    ensures Bucket(times[i]) in BucketStarts(times)
  {
    var r := BucketStarts(times);
    var lo := Bucket(MinTime(times));
    var b := Bucket(times[i]);
    assert lo <= b;
    var k := (b - lo) / BucketHours;
    assert (b - lo) % BucketHours == 0;
    assert b <= Bucket(MaxTime(times));
    assert r[k] == b;
  }

  /** The present values observed in bucket `b`, in time-axis order. */
  function InBucket(times: seq<int>, values: seq<Option<real>>, b: int): (r: seq<real>)
    requires |times| == |values|
    ensures forall x :: x in r ==>
              exists i :: 0 <= i < |times| && Bucket(times[i]) == b && values[i] == Some(x)
    ensures forall i :: 0 <= i < |times| && Bucket(times[i]) == b && values[i].Some? ==>
              values[i].value in r
  {
    if |times| == 0 then []
    else
      var rest := InBucket(times[1..], values[1..], b);
      assert forall x :: x in rest ==>
               exists i :: 0 <= i < |times| && Bucket(times[i]) == b && values[i] == Some(x) by {
        forall x | x in rest
          ensures exists i :: 0 <= i < |times| && Bucket(times[i]) == b && values[i] == Some(x)
        {
          var j :| 0 <= j < |times[1..]| && Bucket(times[1..][j]) == b && values[1..][j] == Some(x);
          assert times[j + 1] == times[1..][j] && values[j + 1] == values[1..][j];
        }
      }
      assert forall i :: 1 <= i < |times| ==> times[i] == times[1..][i - 1] && values[i] == values[1..][i - 1];
      (if Bucket(times[0]) == b && values[0].Some? then [values[0].value] else []) + rest
  }

  /** The positions of the time axis observed in bucket `b` with value `x`. */
  function Hits(times: seq<int>, values: seq<Option<real>>, b: int, x: real): set<int>
    requires |times| == |values|
  {
    set i | 0 <= i < |times| && Bucket(times[i]) == b && values[i] == Some(x)
  }

  /** The same positions, each moved `offset` steps later. */
  function HitsFrom(times: seq<int>, values: seq<Option<real>>, b: int, x: real, offset: int): set<int>
    requires |times| == |values|
  {
    set i | 0 <= i < |times| && Bucket(times[i]) == b && values[i] == Some(x) :: i + offset
  }

  /** The hits of a nonempty axis: the first position if it hits, and
      apart from it the hits of the rest. */
  lemma HitsFromSplit(times: seq<int>, values: seq<Option<real>>, b: int, x: real, offset: int)
    requires |times| == |values| && |times| > 0
    ensures var head: set<int> := if Bucket(times[0]) == b && values[0] == Some(x) then {offset} else {};
            var tail := HitsFrom(times[1..], values[1..], b, x, offset + 1);
            HitsFrom(times, values, b, x, offset) == head + tail && head * tail == {}
  {
    var head: set<int> := if Bucket(times[0]) == b && values[0] == Some(x) then {offset} else {};
    var tail := HitsFrom(times[1..], values[1..], b, x, offset + 1);
    forall p | p in HitsFrom(times, values, b, x, offset) ensures p in head + tail {
      var i :| 0 <= i < |times| && Bucket(times[i]) == b && values[i] == Some(x) && p == i + offset;
      if i > 0 {
        assert times[1..][i - 1] == times[i] && values[1..][i - 1] == values[i];
      }
    }
    forall p | p in tail ensures p in HitsFrom(times, values, b, x, offset) && p != offset {
      var j :| 0 <= j < |times[1..]| && Bucket(times[1..][j]) == b && values[1..][j] == Some(x)
               && p == j + offset + 1;
      assert times[1..][j] == times[j + 1] && values[1..][j] == values[j + 1];
    }
  }

  lemma {:induction false} CountsFrom(times: seq<int>, values: seq<Option<real>>, b: int, x: real, offset: int)
    requires |times| == |values|
    ensures multiset(InBucket(times, values, b))[x] == |HitsFrom(times, values, b, x, offset)|
  {
    if |times| == 0 {
      assert HitsFrom(times, values, b, x, offset) == {};
    } else {
      var rest := InBucket(times[1..], values[1..], b);
      var first := if Bucket(times[0]) == b && values[0].Some? then [values[0].value] else [];
      assert InBucket(times, values, b) == first + rest;
      assert multiset(first + rest)[x] == multiset(first)[x] + multiset(rest)[x];
      CountsFrom(times[1..], values[1..], b, x, offset + 1);
      HitsFromSplit(times, values, b, x, offset);
    }
  }

  /** The values averaged for a bucket are the observations in it, each as
      often as it was observed: a value occurs in the list exactly as many
      times as the bucket has observations of that value. */
  lemma InBucketCounts(times: seq<int>, values: seq<Option<real>>, b: int, x: real)
    requires |times| == |values|
    ensures multiset(InBucket(times, values, b))[x] == |Hits(times, values, b, x)|
  {
    CountsFrom(times, values, b, x, 0);
    assert HitsFrom(times, values, b, x, 0) == Hits(times, values, b, x);
  }

  /** The skip-missing mean of one bucket; missing when the bucket has no value. */
  function BucketMean(times: seq<int>, values: seq<Option<real>>, b: int): Option<real>
    requires |times| == |values|
  {
    var xs := InBucket(times, values, b);
    if |xs| == 0 then None else Some(Mean(xs))
  }

  function ResampleColumn(times: seq<int>, c: Column): (r: Column)
    requires |c.values| == |times|
    ensures r.stationId == c.stationId && r.distance == c.distance
    ensures |r.values| == |BucketStarts(times)|
  {
    var starts := BucketStarts(times);
    Column(c.stationId, c.distance,
           seq(|starts|, j requires 0 <= j < |starts| => BucketMean(times, c.values, starts[j])))
  }

  /** `resample({'time': '3H'}).mean('time')` on every station column. */
  function Resample(ds: Dataset): (r: Dataset)
    requires WellFormed(ds)
    ensures WellFormed(r)
    ensures r.times == BucketStarts(ds.times)
    ensures |r.columns| == |ds.columns|
    ensures forall k :: 0 <= k < |ds.columns| ==>
              r.columns[k].stationId == ds.columns[k].stationId && r.columns[k].distance == ds.columns[k].distance
  {
    Dataset(BucketStarts(ds.times),
            seq(|ds.columns|, k requires 0 <= k < |ds.columns| => ResampleColumn(ds.times, ds.columns[k])))
  }

  /** Each resampled value is the mean of the values observed in its
      bucket, and missing when the bucket has none. */
  lemma ResampleIsBucketMean(ds: Dataset, k: int, j: int)
    requires WellFormed(ds) && 0 <= k < |ds.columns|
    requires 0 <= j < |Resample(ds).times|
    ensures var xs := InBucket(ds.times, ds.columns[k].values, Resample(ds).times[j]);
            Resample(ds).columns[k].values[j] == if |xs| == 0 then None else Some(Mean(xs))
  {
    assert Resample(ds).columns[k] == ResampleColumn(ds.times, ds.columns[k]);
  }

  /** A resampled value is missing exactly when every observation of that
      station in that bucket is missing. */
  lemma ResampleMissingIff(ds: Dataset, k: int, j: int)
    requires WellFormed(ds) && 0 <= k < |ds.columns|
    requires 0 <= j < |Resample(ds).times|
    ensures Resample(ds).columns[k].values[j].None? <==>
              forall i :: 0 <= i < |ds.times| && Bucket(ds.times[i]) == Resample(ds).times[j] ==>
                ds.columns[k].values[i].None?
  {
    var b := Resample(ds).times[j];
    var xs := InBucket(ds.times, ds.columns[k].values, b);
    assert Resample(ds).columns[k].values[j] == BucketMean(ds.times, ds.columns[k].values, b);
    if |xs| > 0 {
      assert xs[0] in xs;
    }
  }

  /** A resampled value is the mean of the bucket's present values, so it
      lies between two of them: the smallest and the largest. */
  lemma ResampleMeanWithin(ds: Dataset, k: int, j: int)
    requires WellFormed(ds) && 0 <= k < |ds.columns|
    requires 0 <= j < |Resample(ds).times|
    requires Resample(ds).columns[k].values[j].Some?
    ensures exists i1, i2 ::
              && 0 <= i1 < |ds.times| && 0 <= i2 < |ds.times|
              && Bucket(ds.times[i1]) == Resample(ds).times[j] && Bucket(ds.times[i2]) == Resample(ds).times[j]
              && ds.columns[k].values[i1].Some? && ds.columns[k].values[i2].Some?
              && ds.columns[k].values[i1].value <= Resample(ds).columns[k].values[j].value
              && Resample(ds).columns[k].values[j].value <= ds.columns[k].values[i2].value
  {
    var b := Resample(ds).times[j];
    var xs := InBucket(ds.times, ds.columns[k].values, b);
    assert Resample(ds).columns[k].values[j] == BucketMean(ds.times, ds.columns[k].values, b);
    MeanBetweenMinAndMax(xs);
    var i1 :| 0 <= i1 < |ds.times| && Bucket(ds.times[i1]) == b && ds.columns[k].values[i1] == Some(Min(xs));
    var i2 :| 0 <= i2 < |ds.times| && Bucket(ds.times[i2]) == b && ds.columns[k].values[i2] == Some(Max(xs));
  }
}

=== FILE: ranking.dfy ===
/** Station selection and ranking of the extraction downloader
    (`src/data/extraction/openaq_obs.py`): narrow the directory's answer to
    reference-grade sensors, score each station's temporal coverage, drop the
    out-of-range ones and sort the rest by distance over coverage. */
module Ranking {
  import opened Common
  import opened Coverage

  /** One entry of a station's `parameters` list. */
  datatype Parameter = Parameter(parameter: string, unit: string)

  /** A station as the directory describes it. `distance` is the great-circle
      distance in km to the location of interest, computed outside the model. */
  datatype Station = Station(
    id: int,
    sensorType: string,
    latitude: real,
    longitude: real,
    firstUpdated: int,
    lastUpdated: int,
    parameters: seq<Parameter>,
    distance: real)

  const ReferenceGrade: string := "reference grade"

  predicate IsReferenceGrade(s: Station) {
    s.sensorType == ReferenceGrade
  }

  /** `_get_closest_stations_to_location` after the directory query: an empty
      answer is an error, and reference-grade stations, when there are any,
      replace the whole candidate list. */
  function SelectCandidates(stations: seq<Station>): (r: Result<seq<Station>>)
    ensures r.Err? <==> |stations| == 0
    ensures r.Err? ==> r.error == NoStationsFound
    ensures r.Ok? ==> |r.value| > 0
    ensures r.Ok? && (exists i :: 0 <= i < |stations| && IsReferenceGrade(stations[i])) ==>
              r.value == Filter(stations, IsReferenceGrade)
              && forall s :: s in r.value ==> IsReferenceGrade(s)
    ensures r.Ok? && (forall i :: 0 <= i < |stations| ==> !IsReferenceGrade(stations[i])) ==>
              r.value == stations
  {
    if |stations| == 0 then Err(NoStationsFound)
    else
      var reference := Filter(stations, IsReferenceGrade);
      if |reference| >= 1 then Ok(reference) else Ok(stations)
  }

  /** A station with its coverage score (1, -1 or a fraction in [0, 1]). */
  datatype Scored = Scored(station: Station, score: real)

  /** Score every station in order; the first division by zero aborts. */
  function ScoreAll(requested: HourRange, stations: seq<Station>): (r: Result<seq<Scored>>)
    ensures r.Err? <==>
              exists i :: 0 <= i < |stations| && Score(requested, stations[i].firstUpdated, stations[i].lastUpdated).Err?
    ensures r.Err? ==> r.error == EmptyRequestedRange
    ensures r.Ok? ==> |r.value| == |stations|
    ensures r.Ok? ==> forall i :: 0 <= i < |stations| ==>
              r.value[i].station == stations[i] &&
              Score(requested, stations[i].firstUpdated, stations[i].lastUpdated) == Ok(r.value[i].score)
  {
    if |stations| == 0 then Ok([])
    else
      var s := stations[0];
      var score := Score(requested, s.firstUpdated, s.lastUpdated);
      var rest := ScoreAll(requested, stations[1..]);
      if score.Err? then Err(score.error)
      else if rest.Err? then Err(rest.error)
      else Ok([Scored(s, score.value)] + rest.value)
  }

  predicate InRange(s: Scored) {
    s.score != OutOfRange
  }

  /** The ranking key `distance / score` as pandas evaluates it: a score of 0
      gives an infinity of the distance's sign, or NaN for a zero distance. */
  datatype RankKey = NegInf | Finite(value: real) | PosInf | NaN

  function KeyOf(s: Scored): RankKey {
    if s.score != 0.0 then Finite(s.station.distance / s.score)
    else if s.station.distance > 0.0 then PosInf
    else if s.station.distance < 0.0 then NegInf
    else NaN
  }

  /** Position of a key's kind in the ascending order: NaN sorts last, as
      `sort_values` puts it. */
  function Tier(k: RankKey): int {
    match k
    case NegInf => 0
    case Finite(_) => 1
    case PosInf => 2
    case NaN => 3
  }

  /** Ascending order of keys. */
  predicate KeyLe(a: RankKey, b: RankKey) {
    Tier(a) < Tier(b) || (Tier(a) == Tier(b) && (a.Finite? ==> a.value <= b.value))
  }

  lemma KeyLeTotal(a: RankKey, b: RankKey)
    ensures KeyLe(a, b) || KeyLe(b, a)
  {
  }

  predicate SortedByKey(s: seq<Scored>) {
    forall i, j :: 0 <= i < j < |s| ==> KeyLe(KeyOf(s[i]), KeyOf(s[j]))
  }

  function Insert(x: Scored, s: seq<Scored>): (r: seq<Scored>)
    requires SortedByKey(s)
    ensures SortedByKey(r)
    ensures multiset(r) == multiset(s) + multiset{x}
  {
    if |s| == 0 then [x]
    else if KeyLe(KeyOf(x), KeyOf(s[0])) then [x] + s
    else
      var rest := Insert(x, s[1..]);
      assert s == [s[0]] + s[1..];
      InsertAfterHead(x, s, rest);
      [s[0]] + rest
  }

  lemma InsertAfterHead(x: Scored, s: seq<Scored>, rest: seq<Scored>)
    requires |s| > 0 && SortedByKey(s) && SortedByKey(rest)
    requires !KeyLe(KeyOf(x), KeyOf(s[0]))
    requires multiset(rest) == multiset(s[1..]) + multiset{x}
    ensures SortedByKey([s[0]] + rest)
  {
    KeyLeTotal(KeyOf(x), KeyOf(s[0]));
    forall j | 0 <= j < |rest| ensures KeyLe(KeyOf(s[0]), KeyOf(rest[j])) {
      assert rest[j] in multiset(rest);
      if rest[j] != x {
        assert rest[j] in multiset(s[1..]);
        var k :| 0 <= k < |s[1..]| && s[1..][k] == rest[j];
        assert s[k + 1] == rest[j];
      }
    }
    var t := [s[0]] + rest;
    forall i, j | 0 <= i < j < |t| ensures KeyLe(KeyOf(t[i]), KeyOf(t[j])) {
      if i == 0 {
        assert t[j] == rest[j - 1];
      } else {
        assert t[i] == rest[i - 1] && t[j] == rest[j - 1];
      }
    }
  }

  /** Insertion sort by ranking key; equal keys keep their input order. */
  function SortByKey(s: seq<Scored>): (r: seq<Scored>)
    ensures SortedByKey(r)
    ensures multiset(r) == multiset(s)
  {
    if |s| == 0 then []
    else
      assert s == [s[0]] + s[1..];
      Insert(s[0], SortByKey(s[1..]))
  }

  /** `get_closest_stations_to_location`: score, drop the out-of-range
      stations and sort the rest ascending by distance over score. */
  function Rank(requested: HourRange, candidates: seq<Station>): (r: Result<seq<Scored>>)
    ensures r.Err? <==> ScoreAll(requested, candidates).Err?
    ensures r.Err? ==> r.error == EmptyRequestedRange
    ensures r.Ok? ==> SortedByKey(r.value)
    ensures r.Ok? ==> multiset(r.value) == multiset(Filter(ScoreAll(requested, candidates).value, InRange))
  {
    match ScoreAll(requested, candidates)
    case Err(e) => Err(e)
    case Ok(scored) => Ok(SortByKey(Filter(scored, InRange)))
  }

  /** What the ranked list holds: no station scored -1, and every candidate
      scored otherwise, with its score. */
  lemma RankKeepsExactlyInRange(requested: HourRange, candidates: seq<Station>)
    requires Rank(requested, candidates).Ok?
    ensures var ranked := Rank(requested, candidates).value;
      && (forall s :: s in ranked ==>
            && s.score != OutOfRange
            && s.station in candidates
            && Score(requested, s.station.firstUpdated, s.station.lastUpdated) == Ok(s.score))
      && (forall i :: 0 <= i < |candidates| ==>
           var c := candidates[i];
           var sc := Score(requested, c.firstUpdated, c.lastUpdated);
           sc.Ok? && sc.value != OutOfRange ==> Scored(c, sc.value) in ranked)
  {
    var scored := ScoreAll(requested, candidates).value;
    var kept := Filter(scored, InRange);
    var ranked := Rank(requested, candidates).value;
    forall s | s in ranked
      ensures s.score != OutOfRange && s.station in candidates
      ensures Score(requested, s.station.firstUpdated, s.station.lastUpdated) == Ok(s.score)
    {
      assert s in multiset(kept);
      assert s in kept;
      var i :| 0 <= i < |scored| && scored[i] == s;
      assert s.station == candidates[i];
    }
    forall i | 0 <= i < |candidates|
      ensures var c := candidates[i];
              var sc := Score(requested, c.firstUpdated, c.lastUpdated);
              sc.Ok? && sc.value != OutOfRange ==> Scored(c, sc.value) in ranked
    {
      var c := candidates[i];
      var sc := Score(requested, c.firstUpdated, c.lastUpdated);
      if sc.Ok? && sc.value != OutOfRange {
        assert scored[i] == Scored(c, sc.value);
        assert Scored(c, sc.value) in kept;
        assert Scored(c, sc.value) in multiset(ranked);
      }
    }
  }

  /** Two stations that both fully cover the window are both kept with
      score 1, and the ranking is the sort of that pair. */
  lemma FullyCoveringPairRanks(x: Station, y: Station, requested: HourRange)
    requires FullyCovered(requested, x.firstUpdated, x.lastUpdated)
    requires FullyCovered(requested, y.firstUpdated, y.lastUpdated)
    ensures Rank(requested, [x, y]) == Ok(SortByKey([Scored(x, 1.0), Scored(y, 1.0)]))
  {
    var sx := Scored(x, 1.0);
    var sy := Scored(y, 1.0);
    var both := [x, y];
    assert Score(requested, x.firstUpdated, x.lastUpdated) == Ok(1.0);
    assert Score(requested, y.firstUpdated, y.lastUpdated) == Ok(1.0);
    var one := [y];
    assert both[1..] == one && one[1..] == [];
    assert ScoreAll(requested, one) == Ok([sy] + []);
    assert [sy] + [] == [sy];
    assert ScoreAll(requested, both) == Ok([sx] + [sy]);
    assert [sx] + [sy] == [sx, sy];
    FilterAll([sx, sy], InRange);
    assert Filter([sx, sy], InRange) == [sx, sy];
  }

  /** Sorting two stations with strictly ordered keys puts the smaller key
      first, whichever comes first in the input. */
  lemma SortPair(x: Scored, y: Scored)
    requires KeyLe(KeyOf(x), KeyOf(y)) && !KeyLe(KeyOf(y), KeyOf(x))
    ensures SortByKey([x, y]) == [x, y]
    ensures SortByKey([y, x]) == [x, y]
  {
    assert SortByKey([x]) == [x] && SortByKey([y]) == [y] by {
      assert [x][1..] == [] && [y][1..] == [];
    }
    assert SortByKey([y, x]) == [x, y] by {
      assert [y, x][1..] == [x];
      assert SortByKey([y, x]) == Insert(y, [x]);
      assert Insert(y, [x]) == [x] + Insert(y, []) by {
        assert [x][1..] == [];
      }
    }
    assert SortByKey([x, y]) == [x, y] by {
      assert [x, y][1..] == [y];
      assert SortByKey([x, y]) == Insert(x, [y]);
    }
  }

  /** Among stations that fully cover the window, the closer one ranks
      first, in either input order. */
  lemma CloserFullyCoveringStationRanksFirst(a: Station, b: Station, requested: HourRange)
    requires FullyCovered(requested, a.firstUpdated, a.lastUpdated)
    requires FullyCovered(requested, b.firstUpdated, b.lastUpdated)
    requires 0.0 <= a.distance < b.distance
    ensures Rank(requested, [b, a]) == Ok([Scored(a, 1.0), Scored(b, 1.0)])
    ensures Rank(requested, [a, b]) == Ok([Scored(a, 1.0), Scored(b, 1.0)])
  {
    var sa := Scored(a, 1.0);
    var sb := Scored(b, 1.0);
    assert KeyLe(KeyOf(sa), KeyOf(sb)) && !KeyLe(KeyOf(sb), KeyOf(sa)) by {
      assert KeyOf(sa) == Finite(a.distance) && KeyOf(sb) == Finite(b.distance);
    }
    SortPair(sa, sb);
    assert Rank(requested, [b, a]) == Ok([sa, sb]) by {
      FullyCoveringPairRanks(b, a, requested);
    }
    assert Rank(requested, [a, b]) == Ok([sa, sb]) by {
      FullyCoveringPairRanks(a, b, requested);
    }
  }

  /** A reference-grade station 50 km away wins over a low-cost sensor 5 km
      away: the quality filter overrides distance. */
  lemma ReferenceGradeOverridesDistance(reference: Station, lowCost: Station)
    requires IsReferenceGrade(reference) && reference.distance == 50.0
    requires !IsReferenceGrade(lowCost) && lowCost.distance == 5.0
    ensures SelectCandidates([lowCost, reference]) == Ok([reference])
  {
    var both := [lowCost, reference];
    assert both[1..] == [reference];
    assert [reference][1..] == [];
    assert Filter([reference], IsReferenceGrade) == [reference] + Filter([], IsReferenceGrade);
    assert Filter(both, IsReferenceGrade) == [] + Filter([reference], IsReferenceGrade);
    assert Filter(both, IsReferenceGrade) == [reference];
    assert |Filter(both, IsReferenceGrade)| >= 1;
  }
}

=== FILE: text.dfy ===
/** String helpers the legacy downloader needs to build output paths:
    lower-casing, joining with a separator, deleting a character, and
    joining path components. */
module Text {

  predicate IsUpper(c: char) {
    'A' <= c <= 'Z'
  }

  function LowerChar(c: char): (d: char)
    ensures !IsUpper(d)
    ensures !IsUpper(c) ==> d == c
  {
    if IsUpper(c) then (c as int - 'A' as int + 'a' as int) as char else c
  }

  /** `str.lower()` restricted to ASCII letters. */
  function Lower(s: string): (r: string)
    ensures |r| == |s|
    ensures forall i :: 0 <= i < |r| ==> !IsUpper(r[i])
    ensures forall i :: 0 <= i < |s| ==> r[i] == LowerChar(s[i])
  {
    if |s| == 0 then "" else [LowerChar(s[0])] + Lower(s[1..])
  }

  /** `sep.join(parts)`. */
  function JoinWith(parts: seq<string>, sep: string): string {
    if |parts| == 0 then ""
    else if |parts| == 1 then parts[0]
    else parts[0] + sep + JoinWith(parts[1..], sep)
  }

  /** `s.replace(c, '')`: every occurrence of `c` deleted, the rest in order. */
  function Remove(s: string, c: char): (r: string)
    ensures c !in r
    ensures |r| <= |s|
    ensures forall d :: d != c ==> multiset(r)[d] == multiset(s)[d]
  {
    if |s| == 0 then ""
    else
      assert s == [s[0]] + s[1..];
      (if s[0] == c then "" else [s[0]]) + Remove(s[1..], c)
  }

  lemma {:induction false} RemoveConcat(a: string, b: string, c: char)
    ensures Remove(a + b, c) == Remove(a, c) + Remove(b, c)
  {
    if |a| == 0 {
      assert a + b == b;
    } else {
      assert (a + b)[1..] == a[1..] + b;
      RemoveConcat(a[1..], b, c);
    }
  }

  /** A string without `c` is left unchanged. */
  lemma {:induction false} RemoveAbsent(s: string, c: char)
    requires c !in s
    ensures Remove(s, c) == s
  {
    if |s| > 0 {
      assert c !in s[1..];
      RemoveAbsent(s[1..], c);
    }
  }

  /** `pathlib` joining of two components: empty components vanish. */
  function PathJoin(a: string, b: string): string {
    if a == "" then b else if b == "" then a else a + "/" + b
  }
}
